=== FILE: README.md ===
# TextaraRefiner client core in Dafny

A Dafny model of the browser client of TextaraRefiner (`script.js`). A user
selects text in a report shown in the page. The selection and an instruction
go to a refinement service over a WebSocket. The refined text that comes back
can be applied to the report, and the applied edits are later saved as a new
report file.

The model covers:

- the session object and its handlers: selection, sending, the reply, apply,
  reset and save;
- the image safeguard around an applied edit:
  - `protectImages`;
  - the records taken before the substitution;
  - the deferred restore pass;
- the two key-sequence matchers (Konami code and "ERIC");
- the name rules: the list label, the `?report=` match name, and the save-file
  name.

Modules, one per file:

- `wrappers.dfy`, module `Wrappers`: the `Option` type.
- `text.dfy`, module `JsText`: the ECMAScript string operations the script
  relies on.
  - `trim`, with the ECMAScript white-space set.
  - `split('/').pop()`.
  - `indexOf`, and `replace` with a string pattern, which replaces only the
    first occurrence.
- `naming.dfy`, module `Naming`:
  - the list label (`script.js:125`) and the match name (`script.js:64`);
  - the search for a URL-named report;
  - the save-name dialog.
- `keys.dfy`, module `KeyCodes`: the key matchers.
  - A specification `Run` over the keys typed.
  - A `KeyWatcher` class whose `KeyDown` updates both indices in place.
- `dom.dfy`, module `ReportDom`: the report display.
  - The document is a flat sequence of nodes in document order: characters,
    `<br>`s and images. Each node knows the id of the element it sits in.
  - A DOM Range is a pair of indices.
  - `ReportView` is the display, changed in place by `ProtectImages` and by
    the text substitution.
- `assets.dfy`, module `ImageGuard`:
  - the image records taken before a substitution;
  - the restore pass: lookup by id and then by `src`, repair of a lost `src`,
    and reinsertion before the recorded sibling or at the end of the parent;
  - `RestoreImages`, the loop method run against the display.
- `selection.dfy`, module `Selection`:
  - the current selection and the freshness check `applyRefinement` makes;
  - the capture as written and the corrected capture (see Findings).
- `session.dfy`, module `Refine`: the `Session` class.
  - Fields: the report, the selection, the conversation, the applied edits,
    the edit-in-progress flag, the chat bubbles, the socket state, the
    messages sent, and the pending image records.
  - Its invariant: while an edit is in progress there is no selection, so no
    second edit can be applied.
  - Saving is two steps, `StartSave` and `FinishSave`, because the script
    awaits the request (`script.js:580-594`). Other handlers, such as apply,
    can run in between.

The model follows the script's code, including:

- An error reply from the service only adds a chat bubble. It is not added to
  the conversation (`script.js:642-644`).
- `sendInstruction` does not extend the conversation. The conversation is
  extended only when the reply arrives (`script.js:637-641`). It uses the
  selection current at that time, not the one the request was about.
- `sendInstruction` adds a loading bubble even when the socket is closed,
  after the connection-error bubble (`script.js:514-517`).
- The applied edit is recorded before the substitution and the restore pass
  (`script.js:695-698`). A pass that ends in an exception does not remove it.
  It also leaves `isApplyingChange` set, so later selections are ignored.

## Model

| member | source | states |
|---|---|---|
| JsText.LeadingSpace | script.js:493 | the count of leading characters `trim` removes: all white space, followed by a non-space or the end |
| JsText.TrailingCut | script.js:493 | the length `trim` keeps at the end: everything after it is white space, and the character before it is not |
| JsText.TrimIsCore | script.js:493 | `trim` returns a middle slice of its input, cut only at white space, with no white space at either end |
| JsText.TrimStartSkipsSpace | script.js:493 | leading white space does not change what the start trim leaves |
| JsText.TrimEndSkipsSpace | script.js:493 | trailing white space does not change what the end trim leaves |
| JsText.TrimAround | script.js:493 | white space around a string with non-space ends trims back to exactly that string |
| JsText.TrimIdempotent | script.js:64 | trimming twice equals trimming once |
| JsText.TrimEmptyIffAllSpace | script.js:566 | `trim()` is empty exactly when the string is all white space |
| JsText.TrimFixesExactlyTrimmed | script.js:493-495 | `trim` returns its input unchanged exactly when neither end is white space |
| JsText.LastSlash | script.js:64 | the index of the last '/' (-1 if none): it holds '/' and no later character does |
| JsText.IndexOf | script.js:553 | `indexOf` returns -1 when there is no occurrence, otherwise the position of the first one |
| JsText.FirstOccurrence | script.js:553 | an occurrence with none before it is the one `indexOf` returns |
| Naming.LastSegmentOfPlain | script.js:125 | a name without '/' is its own last segment |
| Naming.LastSegmentAfterSlash | script.js:64 | the last segment of `folder/s` is `s` when `s` holds no '/' |
| Naming.MatchNameIdempotent | script.js:64 | a match name is its own match name |
| Naming.DisplayAgreesWithMatch | script.js:125 | the list label equals the match name exactly when the name has a '/' or no white space at its ends |
| Naming.FindReport | script.js:54-76 | "retry later" exactly when the list is empty and shows no error; otherwise the first entry whose match name is the requested name, or none if no entry matches |
| Naming.SuggestedNameOfDocx | script.js:553-554 | `<folder>/<spaces><base>.docx` is proposed as `<base>_refined` when `<base>` has no earlier ".docx" |
| Naming.DropDocx | script.js:553 | removing the first ".docx" from `<base>.docx` leaves `<base>` when that ".docx" is the first occurrence |
| Naming.ChooseSaveName | script.js:557-570 | a typed answer aborts the save exactly when it is all white space, and is otherwise used exactly as typed; a cancelled prompt uses the suggested name |
| KeyCodes.Step | script.js:215-237 | one key keeps the index inside the code |
| KeyCodes.Run | script.js:206-238 | from 0, the index after any keys stays inside the code |
| KeyCodes.IndexIsTypedPrefix | script.js:215-237 | the index is always a number of latest keys that spell the start of the code |
| KeyCodes.FiringMeansCodeTyped | script.js:215-221 | a matcher fires only when the latest keys are exactly its whole code |
| KeyCodes.TypingCodeFires | script.js:215-221 | typing the code from index 0 advances one step per key and fires on the last key only, returning to 0 |
| KeyCodes.ExtraUpDefeatsKonami | script.js:215-224 | a wrong key is not retried as a first key, so "Up" followed by the Konami code never fires |
| KeyCodes.KeyWatcher.constructor | script.js:199-204 | both indices start at 0 |
| KeyCodes.KeyWatcher.KeyDown | script.js:206-238 | a key in INPUT/TEXTAREA resets both indices; any other key steps each matcher on its own, the indices stay equal to `Run` of the keys typed since the last reset, and each matcher reports firing exactly as `Fires` of those keys says |
| ReportDom.TextNodes | script.js:726-727 | the inserted content has one node per character of the refined text, no image, all in the host element |
| ReportDom.TextNodesRead | script.js:726-727 | the inserted content reads as the refined text without its line breaks |
| ReportDom.SubstituteReadsRefined | script.js:729-731 | after the substitution the nodes before the range are unchanged, the nodes after it follow the new content, and the new range reads as the refined text without line breaks |
| ReportDom.ProtectedAt | script.js:243-253 | `protectImages` acts on each node by itself, the k-th image receiving the k-th fresh id |
| ReportDom.ProtectFillsOnlyMissing | script.js:246-252 | only an empty id and an empty `data-original-src` change (to a fresh id and to the `src`); text, breaks and other attributes stay |
| ReportDom.ProtectGuards | script.js:243-253 | afterwards every image has an id, and has a `data-original-src` unless its `src` is empty |
| ReportDom.ProtectFixesGuarded | script.js:243-253 | `protectImages` changes nothing when every image is already guarded |
| ReportDom.ProtectIdempotent | script.js:243-253 | a second `protectImages` changes nothing |
| ReportDom.ImageCountGrows | script.js:243-245 | an image is counted by every longer prefix, so the `forEach` index numbers the images 0, 1, 2, ... in document order |
| ReportDom.ProtectUniqueIds | script.js:240-246 | with fresh ids that are non-empty, pairwise different and unlike every id in the report, and a report whose own image ids do not repeat, every image has an id afterwards and no two images share one |
| ReportDom.ReportView.constructor | script.js:471 | the display holds the loaded report's nodes |
| ReportDom.ReportView.ProtectImages | script.js:243-253 | the in-place pass leaves the display equal to `Protected` of the old nodes |
| ReportDom.ReportView.ReplaceRange | script.js:726-731 | the display becomes the substitution of the refined text for the range |
| ImageGuard.ImagePositions | script.js:707 | the positions of exactly the images, strictly increasing (document order) |
| ImageGuard.Snapshot | script.js:707-716 | one record per image |
| ImageGuard.ImagesBeforePosition | script.js:706-707 | the image at the k-th image position has exactly k images before it |
| ImageGuard.SnapshotAlignsWithProtect | script.js:243-245 | there are as many records as images; record k (the `map` index at script.js:706) is of the image with exactly k images before it, the same image that `protectImages` gives fresh id k |
| ImageGuard.FindById | script.js:737-739 | `getElementById` among the images: the first image carrying the id; nothing for the empty id or when no image carries it |
| ImageGuard.FirstWithId | script.js:737 | the first image carrying the id, or none carries it |
| ImageGuard.FirstWithSrc | script.js:740-745 | the first image showing the `src`, or none shows it |
| ImageGuard.AppendPoint | script.js:768-773 | `appendChild` inserts right after the last node inside the parent when the parent holds any node, and at the end of the document when it holds none; no node of that parent follows the insertion point |
| ImageGuard.RestoreImages | script.js:735-776 | the in-place loop ends as the pass specification says: completed with its document, or aborted with the document the exception left |
| ImageGuard.AbortIsFinal | script.js:735-776 | once an exception ends the pass, later records are not processed |
| ImageGuard.RestoreLeavesHealthyAlone | script.js:748-753 | when every image shows something and every recorded `src` is still shown, the pass changes nothing |
| ImageGuard.SnapshotSourcesPresent | script.js:707-716 | every record's `src` is shown by some image of the recorded document |
| ImageGuard.RestoreAfterTextOnlyEdit | script.js:726-776 | after a substitution that covers no image, the pass changes nothing |
| ImageGuard.LocateOwnImage | script.js:737 | with unique ids, an image's record finds that same image by id |
| ImageGuard.HealStep | script.js:748-753 | the record of an image whose `src` was lost restores exactly that image and no other |
| ImageGuard.HealPrefix | script.js:735-776 | after the first m records, exactly their images are restored |
| ImageGuard.RestoreHealsClearedSources | script.js:735-776 | with unique ids, the pass gives every image whose `src` (and `alt`) was lost its recorded values back, restoring the document exactly |
| ImageGuard.BeforeLostUnchanged | script.js:735-753 | the records before a deleted image change nothing |
| ImageGuard.LostRecordReinserts | script.js:756-767 | a deleted image's record finds nothing by id or `src`, and puts the image back before its recorded next sibling |
| ImageGuard.RestoreReinsertsLost | script.js:735-776 | a deleted image with a following image sibling is put back in its place, restoring the document exactly, when ids are unique and its `src` is unshared |
| ImageGuard.ReinsertPlacement | script.js:756-773 | an image found neither by id nor by `src` is not put back when its recorded parent is gone; it goes just before its recorded next sibling when that sibling is found in the same parent; it goes right after the last node of the parent, or at the end when the parent is empty, when there is no sibling to go by; and a sibling found in another parent makes the pass abort |
| Selection.AsWrittenFreshIffTrimmed | script.js:680-682 | as written, a captured selection passes the freshness check exactly when the selected text has no white space at either end |
| Selection.AsWrittenRefusesTrailingSpace | script.js:493-495 | selecting "a " stores "a" with a range reading "a ", which the check refuses at once |
| Selection.FirstVisible | script.js:493 | corrected capture (not in the script; see Findings): the first non-space character node of a stretch, with none before it |
| Selection.AfterLastVisible | script.js:493 | corrected capture (not in the script; see Findings): one past the last non-space character node of a stretch, with none after it |
| Selection.Narrow | script.js:495 | corrected capture (not in the script; see Findings): the narrowed range lies inside the selected range |
| Selection.InvisibleReadsAsSpace | script.js:493 | nodes with no non-space character read as white space |
| Selection.VisibleEndsReadTrimmed | script.js:493 | nodes that begin and end with a non-space character read as trimmed text |
| Selection.TrimReadsCore | script.js:493 | white-space nodes around such a stretch are exactly what `trim` cuts off |
| Selection.NarrowReadsTrimmed | script.js:493-495 | corrected capture (not in the script; see Findings): the narrowed range reads exactly as the trimmed selected text |
| Selection.CaptureIsFresh | script.js:490-500 | a selection is stored exactly when it holds more than white space; the trimmed text is stored, and the selection passes the freshness check |
| Refine.FirstLoading | script.js:634 | the first loading bubble, with none before it |
| Refine.RemoveFirstLoadingCounts | script.js:634-635 | a reply removes exactly one loading indicator when there is one, and none otherwise |
| Refine.RemoveFirstLoadingKeepsOthers | script.js:634-635 | a reply keeps every other bubble, in order |
| Refine.RequestThenReplyBalances | script.js:517 | a request then its reply leaves as many loading indicators as before |
| Refine.Session.constructor | script.js:22-29 | a loaded report starts with no selection, conversation, edits, bubbles or pending images |
| Refine.Session.SetConnection | script.js:150-153 | the socket state follows open/close; nothing else changes |
| Refine.Session.HandleTextSelection | script.js:490-500 | ignored while an edit is in progress or the selection is all white space; otherwise the trimmed text becomes the selection with the selected range narrowed to its first and last visible characters, which reads back as the stored text |
| Refine.Session.SendInstruction | script.js:503-518 | nothing happens without an instruction or a selection; otherwise the instruction bubble is shown, then either the request (with the selected text and the conversation so far) or a connection-error bubble, then a loading bubble |
| Refine.Session.HandleMessage | script.js:633-646 | the first loading bubble is removed; a result adds the prompt and the refined text to the conversation and offers the result; an error only shows a bubble |
| Refine.Session.ResetRefinePanel | script.js:791-804 | the selection always goes; a full reset also empties the chat, the conversation and the applied edits |
| Refine.Session.ApplyRefinement | script.js:677-789 | applied exactly when the selection still reads as its text, and never during another edit; then the edit is recorded, the images are recorded, the range is replaced by the refined text, and the selection is reset |
| Refine.Session.BeginEdit | script.js:695-704 | an edit of a non-empty text is recorded, the images are recorded for the restore pass, the edit is marked in progress and the selection is dropped; the chat and the conversation are kept |
| Refine.Session.FinishSave | script.js:594-614 | a successful save moves the session to the new file and empties the whole record of edits; a failure changes nothing |
| Refine.Session.SettleImages | script.js:734-785 | runs the restore pass; if it completes, the images are protected and the edit ends; if it aborts, the edit stays in progress |
| Refine.Session.StartSave | script.js:544-592 | no request without a report or without edits, or when the dialog aborts; otherwise every recorded edit is posted under the chosen name, with the report's name and id; the session is unchanged until the reply |
| Refine.EditDuringSave | script.js:580-614 | an edit applied while the save request is pending is shown on the display but is neither in the request nor in the record of edits after a successful reply |
| Refine.Session.FinishSaveKeepingLater | script.js:594-614 | corrected reply (see Findings): on success the session follows the new file and the record of edits loses exactly the edits the request carried; a failure changes nothing |
| Refine.EditDuringSaveKept | script.js:580-614 | corrected reply (see Findings): an edit applied while the save request is pending is the one edit left recorded after a successful reply, ready for the next save |

## Left out

- Network I/O is out. `fetchReports`, `selectReport`, `fetch` of report content,
  download links and the save request's transport are not modelled.
  - The save endpoint's answer is a parameter of `FinishSave`.
  - The loaded report is a parameter of the constructors.
- The WebSocket transport, JSON encoding and the 5-second reconnect timer are
  out. Sending is appending to `sent`; open and close are `SetConnection`.
- Timers are out: the debounce, the 500 ms retry of the URL search, the
  status-message timeouts, and the 100 ms deferral.
  - The deferred image pass is the explicit step `SettleImages`.
  - `FindReport` returns `Retry` instead of scheduling itself.
- `Date.now()`-based ids are out. Fresh image ids are a parameter
  `gen: nat -> Id`.
- ReportDom.ProtectUniqueIds: assumes the fresh ids differ from each other
  and from every id already in the report, which `Date.now()` stamps do not
  guarantee. `protectImages` gives ids only to images without one, so two
  images that share an id in the loaded report keep sharing it, and the
  restore results that require unique ids do not apply to such a report.
- The easter-egg effects (`activateSecretMode`, `triggerPageCollapse`) are out.
  Only whether a matcher fires is modelled.
- `debugCheckImages`, `fixImageSources`, console logging, `alert`, and button
  enabling and labels are out.
- The instruction input box is out. The instruction is a parameter.
- HTML is not parsed.
  - Refined text is inserted as characters and `<br>`s. Markup inside it
    stays literal text.
  - A reinserted image is its recorded form, not a re-parse of `outerHTML`.
- `selection.toString()` and `range.toString()` are taken to be the same
  text. Browsers that add line breaks between blocks to the former are not
  modelled.
- The document is simplified.
  - Elements other than images are known only by id.
  - `deleteContents` never removes an element.
  - An element with no nodes left appends at the end of the sequence.
  - A next sibling that is not an image is not recorded.
- ImageGuard.AppendPoint: the insertion point ignores nested elements. Each
  node knows only its innermost element, so `appendChild` is modelled as
  inserting right after the last node directly inside the parent. The script
  appends after the parent's last child, which comes after everything nested
  in that parent: a `<p>` that follows the last image inside the display is
  passed over by the script but not by the model. `elements` stands for the
  ids `getElementById` can find. A parent id missing from it, such as the
  display's own id when it is left out, means no reinsertion, where the script
  would still find the element.
- `img.src` and `getAttribute('src')` are treated as the same string, so
  relative URLs are not resolved.
- Refine.Session.HandleMessage: a result message is assumed to carry
  `refined_text`. Without it, the script records an assistant turn with no
  content (script.js:640) and then throws while building the result bubble
  (script.js:660), so no result is offered; that path is not modelled. An
  absent `original_instruction` is the empty string here, where the script
  shows "undefined".
- Refine.Session.HandleTextSelection: covers only selections that lie
  within the report display. The `mouseup` listener sits on the display
  (script.js:190), but a selection released there may start outside it, in the
  report list or the header. Then `range.toString()` (script.js:491) reads text
  outside the display and `deleteContents` (script.js:730) would delete it.
  Such a selection is not modelled.
- Refine.Session.HandleTextSelection: stores the corrected capture, whose
  range is narrowed to the stored text, not the untrimmed range clone of
  script.js:495. So a selection with white space at either end stays fresh in
  the session, where the script refuses it as stale. The as-written capture
  and that refusal are modelled on their own in `Selection` (see Findings).

## Findings

| source | as written | input that shows it | evidently intended | confidence | as-written member | corrected member |
|---|---|---|---|---|---|---|
| script.js:614 | after the awaited save request (script.js:580), a successful reply empties the whole record of edits | apply a refinement while the save request is pending, then the save succeeds: the new edit is on the display but was not sent, and is no longer recorded, so no later save carries it | only the edits the request carried are cleared; an edit applied meanwhile stays recorded for the next save | medium, not executed | Refine.EditDuringSave | Refine.EditDuringSaveKept |
| script.js:493-495 | the trimmed selected text is stored with the untrimmed range; `applyRefinement` (script.js:680-682) compares the range's text with the stored text | a paragraph "a " selected in full, including its trailing space, then a refinement applied at once | a selection that has not changed passes the check | medium, not executed | Selection.AsWrittenRefusesTrailingSpace | Selection.CaptureIsFresh |

The corrected capture narrows the range to its first and last non-space
characters, so the range reads exactly as the stored text. `Session` uses the
corrected capture. `Selection.AsWrittenFreshIffTrimmed` shows that as written
every selection with white space at either end is refused as stale.

The save reply is modelled both ways. `Session.FinishSave` empties the whole
record, as the script does, and `Refine.EditDuringSave` shows the edit it
loses. `Session.FinishSaveKeepingLater` clears only the edits the request
carried, and `Refine.EditDuringSaveKept` shows the later edit kept.

=== FILE: assets.dfy ===
/** The image safeguard around a text substitution in `applyRefinement`:
    the records taken of every image before the substitution
    (script.js:707-716) and the deferred pass that looks each recorded image
    up again and repairs or reinserts it (script.js:735-776). */
module ImageGuard {
  import opened Wrappers
  import opened ReportDom

  /** What is recorded of one image; `form` is the image as serialized by
      `outerHTML`, from which a lost image is rebuilt. */
  datatype AssetRecord = AssetRecord(
    id: Id, src: string, alt: string, cls: string,
    parentId: Id, nextSiblingId: Id, previousSiblingId: Id,
    form: Img)

  /** Positions of the images, in document order. */
  function ImagePositions(nodes: seq<Node>): (ps: seq<nat>)
    ensures forall k :: 0 <= k < |ps| ==> ps[k] < |nodes| && nodes[ps[k]].Image?
    ensures forall k, l :: 0 <= k < l < |ps| ==> ps[k] < ps[l]
    ensures forall i :: 0 <= i < |nodes| && nodes[i].Image? ==> i in ps
  {
    if nodes == [] then []
    else
      var pre := ImagePositions(nodes[..|nodes| - 1]);
      if nodes[|nodes| - 1].Image? then pre + [|nodes| - 1] else pre
  }

  /** The id of the node at `j` when it is an image sibling (same parent)
      with an id, as `img.nextSibling.id` gives; "" otherwise. */
  function SiblingId(nodes: seq<Node>, j: int, parent: Id): Id {
    if 0 <= j < |nodes| && nodes[j].Image? && nodes[j].parent == parent then nodes[j].img.id else ""
  }

  /** The record of the image at `i`; an image without an id is recorded
      under `newId` (which the image itself does not receive). */
  function RecordAt(nodes: seq<Node>, i: nat, newId: Id): AssetRecord
    requires i < |nodes| && nodes[i].Image?
  {
    var img := nodes[i].img;
    var p := nodes[i].parent;
    AssetRecord(if img.id != "" then img.id else newId, img.src, img.alt, img.cls,
                p, SiblingId(nodes, i + 1, p), SiblingId(nodes, i - 1, p), img)
  }

  /** The records of all images, the k-th using `gen(k)` if it has no id
      (`img-<now>-<k>`). */
  function Snapshot(nodes: seq<Node>, gen: nat -> Id): (recs: seq<AssetRecord>)
    ensures |recs| == |ImagePositions(nodes)|
  {
    var ps := ImagePositions(nodes);
    seq(|ps|, k requires 0 <= k < |ps| => RecordAt(nodes, ps[k], gen(k)))
  }

  predicate HasId(n: Node, id: Id) {
    n.Image? && n.img.id == id
  }

  lemma {:induction false} ImageCountIsPositions(nodes: seq<Node>)
    ensures ImageCount(nodes) == |ImagePositions(nodes)|
  {
    if nodes != [] {
      ImageCountIsPositions(nodes[..|nodes| - 1]);
    }
  }

  /** The image at the k-th image position has exactly k images before it. */
  lemma {:induction false} ImagesBeforePosition(nodes: seq<Node>)
    ensures forall k :: 0 <= k < |ImagePositions(nodes)| ==> ImageCount(nodes[..ImagePositions(nodes)[k]]) == k
  {
    if nodes != [] {
      var pre := nodes[..|nodes| - 1];
      ImagesBeforePosition(pre);
      var ps := ImagePositions(nodes);
      var qs := ImagePositions(pre);
      forall k | 0 <= k < |ps| ensures ImageCount(nodes[..ps[k]]) == k {
        if k < |qs| {
          assert ps[k] == qs[k];
          assert nodes[..ps[k]] == pre[..qs[k]];
        } else {
          assert ps[k] == |pre|;
          assert nodes[..ps[k]] == pre;
          ImageCountIsPositions(pre);
        }
      }
    }
  }

  /** The k-th record is of the image with exactly k images before it, the
      same image that `protectImages` numbers k (script.js:245, 707); so
      record k and protection id k go to the same image. */
  lemma SnapshotAlignsWithProtect(nodes: seq<Node>, gen: nat -> Id)
    ensures |ImagePositions(nodes)| == ImageCount(nodes)
    ensures forall k :: 0 <= k < |ImagePositions(nodes)| ==> ImageCount(nodes[..ImagePositions(nodes)[k]]) == k
    ensures |Protected(nodes, gen)| == |nodes|
    ensures forall k :: 0 <= k < |ImagePositions(nodes)| ==>
              Protected(nodes, gen)[ImagePositions(nodes)[k]] == ProtectNode(nodes[ImagePositions(nodes)[k]], gen(k))
  {
    ImageCountIsPositions(nodes);
    ImagesBeforePosition(nodes);
    ProtectedAt(nodes, gen);
  }

  predicate HasSrc(n: Node, src: string) {
    n.Image? && n.img.src == src
  }

  function FirstWithId(nodes: seq<Node>, id: Id, from: nat): (r: Option<nat>)
    ensures r.Some? ==> from <= r.value < |nodes| && HasId(nodes[r.value], id)
    ensures r.Some? ==> forall j :: from <= j < r.value ==> !HasId(nodes[j], id)
    ensures r.None? ==> forall j :: from <= j < |nodes| ==> !HasId(nodes[j], id)
    decreases |nodes| - from
  {
    if from >= |nodes| then None
    else if HasId(nodes[from], id) then Some(from)
    else FirstWithId(nodes, id, from + 1)
  }

  function FirstWithSrc(nodes: seq<Node>, src: string, from: nat): (r: Option<nat>)
    ensures r.Some? ==> from <= r.value < |nodes| && HasSrc(nodes[r.value], src)
    ensures r.Some? ==> forall j :: from <= j < r.value ==> !HasSrc(nodes[j], src)
    ensures r.None? ==> forall j :: from <= j < |nodes| ==> !HasSrc(nodes[j], src)
    decreases |nodes| - from
  {
    if from >= |nodes| then None
    else if HasSrc(nodes[from], src) then Some(from)
    else FirstWithSrc(nodes, src, from + 1)
  }

  /** `document.getElementById(id)` among the images: the first image
      carrying `id`; nothing for the empty id. */
  function FindById(nodes: seq<Node>, id: Id): (r: Option<nat>)
    ensures r.Some? ==> id != "" && r.value < |nodes| && HasId(nodes[r.value], id)
    ensures r.Some? ==> forall j :: 0 <= j < r.value ==> !HasId(nodes[j], id)
    ensures r.None? ==> id == "" || forall j :: 0 <= j < |nodes| ==> !HasId(nodes[j], id)
  {
    if id == "" then None else FirstWithId(nodes, id, 0)
  }

  /** The lookup of script.js:737-745: by id, then the first image whose
      `src` is the recorded one. */
  function Locate(nodes: seq<Node>, rec: AssetRecord): Option<nat> {
    match FindById(nodes, rec.id)
    case Some(i) => Some(i)
    case None => FirstWithSrc(nodes, rec.src, 0)
  }

  /** A `src` the browser has lost: empty or `about:blank`. */
  predicate Blank(src: string) {
    src == "" || src == "about:blank"
  }

  /** An image given back its recorded `src` and `alt`, and its recorded
      class if one was recorded (script.js:749-751). */
  function Repaired(img: Img, rec: AssetRecord): Img {
    img.(src := rec.src, alt := rec.alt, cls := if rec.cls != "" then rec.cls else img.cls)
  }

  /** Index of the last node inside element `p`, if any. */
  function LastChild(nodes: seq<Node>, p: Id, upto: nat): (r: Option<nat>)
    requires upto <= |nodes|
    ensures r.Some? ==> r.value < upto && nodes[r.value].parent == p
    ensures forall j :: (if r.Some? then r.value + 1 else 0) <= j < upto ==> nodes[j].parent != p
  {
    if upto == 0 then None
    else if nodes[upto - 1].parent == p then Some(upto - 1)
    else LastChild(nodes, p, upto - 1)
  }

  /** Where `parent.appendChild` puts a node: right after the last node
      inside `p`; at the end when `p` holds no node. */
  function AppendPoint(nodes: seq<Node>, p: Id): (at: nat)
    ensures at <= |nodes|
    ensures forall j :: at <= j < |nodes| ==> nodes[j].parent != p
    ensures (exists j :: 0 <= j < |nodes| && nodes[j].parent == p) ==> 0 < at && nodes[at - 1].parent == p
    ensures (forall j :: 0 <= j < |nodes| ==> nodes[j].parent != p) ==> at == |nodes|
  {
    match LastChild(nodes, p, |nodes|)
    case Some(i) => i + 1
    case None => |nodes|
  }

  function Insert(nodes: seq<Node>, at: nat, n: Node): seq<Node>
    requires at <= |nodes|
  {
    nodes[..at] + [n] + nodes[at..]
  }

  /** How far the deferred pass got: to the end, or stopped by an exception
      (an `insertBefore` whose reference node is not a child of the parent),
      with the document as the exception left it. */
  datatype Pass = Completed(nodes: seq<Node>) | Aborted(nodes: seq<Node>)

  /** One iteration of the `forEach` of script.js:735-776. */
  function RestoreOne(nodes: seq<Node>, elements: set<Id>, rec: AssetRecord): Pass {
    match Locate(nodes, rec)
    case Some(i) =>
      if Blank(nodes[i].img.src) then
        Completed(nodes[i := Image(Repaired(nodes[i].img, rec), nodes[i].parent)])
      else Completed(nodes)
    case None =>
      if rec.parentId == "" || rec.parentId !in elements then Completed(nodes)
      else
        var lost := Image(rec.form, rec.parentId);
        if rec.nextSiblingId == "" then Completed(Insert(nodes, AppendPoint(nodes, rec.parentId), lost))
        else match FindById(nodes, rec.nextSiblingId)
          case None => Completed(Insert(nodes, AppendPoint(nodes, rec.parentId), lost))
          case Some(j) =>
            if nodes[j].parent == rec.parentId then Completed(Insert(nodes, j, lost))
            else Aborted(nodes)
  }

  /** The whole pass over the records, in order. */
  function RestoreAll(nodes: seq<Node>, elements: set<Id>, recs: seq<AssetRecord>): Pass {
    if recs == [] then Completed(nodes)
    else match RestoreAll(nodes, elements, recs[..|recs| - 1])
      case Aborted(ns) => Aborted(ns)
      case Completed(ns) => RestoreOne(ns, elements, recs[|recs| - 1])
  }

  /** Once an exception ends the pass, the records after it are never
      looked at. */
  lemma {:induction false} AbortIsFinal(nodes: seq<Node>, elements: set<Id>, recs: seq<AssetRecord>, i: nat)
    requires i <= |recs| && RestoreAll(nodes, elements, recs[..i]).Aborted?
    ensures RestoreAll(nodes, elements, recs) == RestoreAll(nodes, elements, recs[..i])
    decreases |recs|
  {
    if i < |recs| {
      var pre := recs[..|recs| - 1];
      assert pre[..i] == recs[..i];
      AbortIsFinal(nodes, elements, pre, i);
    } else {
      assert recs[..i] == recs;
    }
  }

  /** The deferred pass run against the report display (script.js:735-777);
      `completed` is false when an exception ended it early. */
  method RestoreImages(view: ReportView, recs: seq<AssetRecord>) returns (completed: bool)
    modifies view
    ensures RestoreAll(old(view.nodes), old(view.elements), recs)
            == (if completed then Completed(view.nodes) else Aborted(view.nodes))
    ensures view.elements == old(view.elements)
  {
    var i := 0;
    while i < |recs|
      invariant 0 <= i <= |recs|
      invariant RestoreAll(old(view.nodes), old(view.elements), recs[..i]) == Completed(view.nodes)
      invariant view.elements == old(view.elements)
    {
      assert recs[..i + 1][..i] == recs[..i];
      assert recs[..i + 1][i] == recs[i];
      ghost var before := view.nodes;
      var rec := recs[i];
      var img := FindById(view.nodes, rec.id);
      if img.None? {
        img := FirstWithSrc(view.nodes, rec.src, 0);
      }
      if img.Some? && Blank(view.nodes[img.value].img.src) {
        var n := view.nodes[img.value];
        view.nodes := view.nodes[img.value := Image(Repaired(n.img, rec), n.parent)];
      }
      if img.None? && rec.parentId != "" {
        if rec.parentId in view.elements {
          var lost := Image(rec.form, rec.parentId);
          if rec.nextSiblingId != "" {
            var next := FindById(view.nodes, rec.nextSiblingId);
            if next.Some? {
              if view.nodes[next.value].parent != rec.parentId {
                assert RestoreOne(before, view.elements, rec) == Aborted(view.nodes);
                assert RestoreAll(old(view.nodes), old(view.elements), recs[..i + 1]) == Aborted(view.nodes);
                AbortIsFinal(old(view.nodes), old(view.elements), recs, i + 1);
                return false;
              }
              view.nodes := Insert(view.nodes, next.value, lost);
            } else {
              view.nodes := Insert(view.nodes, AppendPoint(view.nodes, rec.parentId), lost);
            }
          } else {
            view.nodes := Insert(view.nodes, AppendPoint(view.nodes, rec.parentId), lost);
          }
        }
      }
      assert RestoreOne(before, view.elements, rec) == Completed(view.nodes);
      i := i + 1;
    }
    assert recs[..i] == recs;
    return true;
  }

  // ---- What the pass achieves ---------------------------------------------

  /** Every image still shows something. */
  predicate Healthy(nodes: seq<Node>) {
    forall i :: 0 <= i < |nodes| && nodes[i].Image? ==> !Blank(nodes[i].img.src)
  }

  predicate SrcPresent(nodes: seq<Node>, src: string) {
    exists i :: 0 <= i < |nodes| && HasSrc(nodes[i], src)
  }

  /** Every image has an id, and no two images share one. */
  predicate UniqueIds(nodes: seq<Node>) {
    && (forall i :: 0 <= i < |nodes| && nodes[i].Image? ==> nodes[i].img.id != "")
    && (forall i, j :: 0 <= i < j < |nodes| && nodes[i].Image? && nodes[j].Image? ==>
          nodes[i].img.id != nodes[j].img.id)
  }

  /** Running the records one list after another is running them all. */
  lemma {:induction false} RestoreAllConcat(nodes: seq<Node>, elements: set<Id>, a: seq<AssetRecord>, b: seq<AssetRecord>)
    ensures RestoreAll(nodes, elements, a + b) ==
      match RestoreAll(nodes, elements, a)
      case Completed(ns) => RestoreAll(ns, elements, b)
      case Aborted(ns) => Aborted(ns)
    decreases |b|
  {
    if b == [] {
      assert a + b == a;
    } else {
      var b' := b[..|b| - 1];
      assert (a + b)[..|a + b| - 1] == a + b';
      assert (a + b)[|a + b| - 1] == b[|b| - 1];
      RestoreAllConcat(nodes, elements, a, b');
    }
  }

  /** When every image shows something and every recorded `src` is still
      shown, the pass finds each record and changes nothing. */
  lemma {:induction false} RestoreLeavesHealthyAlone(nodes: seq<Node>, elements: set<Id>, recs: seq<AssetRecord>)
    requires Healthy(nodes)
    requires forall k :: 0 <= k < |recs| ==> SrcPresent(nodes, recs[k].src)
    ensures RestoreAll(nodes, elements, recs) == Completed(nodes)
  {
    if recs != [] {
      var rec := recs[|recs| - 1];
      RestoreLeavesHealthyAlone(nodes, elements, recs[..|recs| - 1]);
      assert SrcPresent(nodes, rec.src);
      var i :| 0 <= i < |nodes| && HasSrc(nodes[i], rec.src);
      assert Locate(nodes, rec).Some?;
    }
  }

  /** Every record of a snapshot names a `src` shown in the snapshotted document. */
  lemma SnapshotSourcesPresent(nodes: seq<Node>, gen: nat -> Id)
    ensures forall k :: 0 <= k < |Snapshot(nodes, gen)| ==> SrcPresent(nodes, Snapshot(nodes, gen)[k].src)
  {
    var ps := ImagePositions(nodes);
    forall k | 0 <= k < |Snapshot(nodes, gen)| ensures SrcPresent(nodes, Snapshot(nodes, gen)[k].src) {
      assert Snapshot(nodes, gen)[k] == RecordAt(nodes, ps[k], gen(k));
      assert HasSrc(nodes[ps[k]], Snapshot(nodes, gen)[k].src);
    }
  }

  /** A substitution over text only leaves every image showing something. */
  lemma TextEditKeepsHealthy(nodes: seq<Node>, r: Range, text: string)
    requires InDoc(nodes, r) && Healthy(nodes)
    ensures Healthy(Substitute(nodes, r, text))
  {
    var edited := Substitute(nodes, r, text);
    SubstituteReadsRefined(nodes, r, text);
    var t := TextNodes(text, HostAt(nodes, r.start));
    assert edited == nodes[..r.start] + t + nodes[r.end..];
    forall i | 0 <= i < |edited| && edited[i].Image? ensures !Blank(edited[i].img.src) {
      if i < r.start {
        assert edited[i] == nodes[i];
      } else if i >= r.start + |text| {
        assert edited[i] == nodes[i - |text| + (r.end - r.start)];
      }
    }
  }

  /** A substitution over text only keeps every image source present. */
  lemma TextEditKeepsSource(nodes: seq<Node>, r: Range, text: string, src: string)
    requires InDoc(nodes, r) && SrcPresent(nodes, src)
    requires forall i :: r.start <= i < r.end ==> !nodes[i].Image?
    ensures SrcPresent(Substitute(nodes, r, text), src)
  {
    var edited := Substitute(nodes, r, text);
    SubstituteReadsRefined(nodes, r, text);
    var i :| 0 <= i < |nodes| && HasSrc(nodes[i], src);
    if i < r.start {
      assert edited[i] == nodes[i];
      assert HasSrc(edited[i], src);
    } else {
      assert i >= r.end;
      assert edited[i - (r.end - r.start) + |text|] == nodes[i];
    }
  }

  /** A substitution that covers no image and leaves every image showing
      something is followed by a pass that changes nothing. */
  lemma RestoreAfterTextOnlyEdit(nodes: seq<Node>, elements: set<Id>, r: Range, text: string, gen: nat -> Id)
    requires InDoc(nodes, r) && Healthy(nodes)
    requires forall i :: r.start <= i < r.end ==> !nodes[i].Image?
    ensures var edited := Substitute(nodes, r, text);
      RestoreAll(edited, elements, Snapshot(nodes, gen)) == Completed(edited)
  {
    var edited := Substitute(nodes, r, text);
    var recs := Snapshot(nodes, gen);
    TextEditKeepsHealthy(nodes, r, text);
    SnapshotSourcesPresent(nodes, gen);
    forall k | 0 <= k < |recs| ensures SrcPresent(edited, recs[k].src) {
      TextEditKeepsSource(nodes, r, text, recs[k].src);
    }
    RestoreLeavesHealthyAlone(edited, elements, recs);
  }

  /** `a` is image `b` after the browser lost its `src` (and maybe its
      `alt`): same element, same id, class and original source. */
  predicate LostSource(a: Node, b: Node) {
    && a.Image? && b.Image? && a.parent == b.parent && Blank(a.img.src)
    && a.img == b.img.(src := a.img.src, alt := a.img.alt)
  }

  /** `damaged` is `nodes` with some images' sources lost. */
  predicate Cleared(damaged: seq<Node>, nodes: seq<Node>) {
    |damaged| == |nodes| &&
    forall i :: 0 <= i < |nodes| ==> damaged[i] == nodes[i] || LostSource(damaged[i], nodes[i])
  }

  /** `damaged` with the positions in `hs` put back as in `nodes`. */
  function Healed(damaged: seq<Node>, nodes: seq<Node>, hs: seq<nat>): (h: seq<Node>)
    requires |damaged| == |nodes|
    ensures |h| == |nodes|
  {
    seq(|nodes|, i requires 0 <= i < |nodes| => if i in hs then nodes[i] else damaged[i])
  }

  lemma HealedIsCleared(damaged: seq<Node>, nodes: seq<Node>, hs: seq<nat>)
    requires Cleared(damaged, nodes)
    ensures Cleared(Healed(damaged, nodes, hs), nodes)
  {
  }

  /** In a document whose images keep their ids, an image's record finds
      that image by its id. */
  lemma LocateOwnImage(cur: seq<Node>, nodes: seq<Node>, q: nat, newId: Id)
    requires UniqueIds(nodes) && Cleared(cur, nodes)
    requires q < |nodes| && nodes[q].Image?
    ensures Locate(cur, RecordAt(nodes, q, newId)) == Some(q)
  {
    var id := nodes[q].img.id;
    forall j | 0 <= j < q ensures !HasId(cur[j], id) {
      assert nodes[j].Image? ==> nodes[j].img.id != id;
    }
    assert HasId(cur[q], id);
  }

  /** The record of image `q` puts exactly that image back. */
  lemma HealStep(damaged: seq<Node>, nodes: seq<Node>, elements: set<Id>, hs: seq<nat>, q: nat, newId: Id)
    requires Healthy(nodes) && UniqueIds(nodes) && Cleared(damaged, nodes)
    requires q < |nodes| && nodes[q].Image? && q !in hs
    ensures RestoreOne(Healed(damaged, nodes, hs), elements, RecordAt(nodes, q, newId))
            == Completed(Healed(damaged, nodes, hs + [q]))
  {
    var cur := Healed(damaged, nodes, hs);
    var rec := RecordAt(nodes, q, newId);
    HealedIsCleared(damaged, nodes, hs);
    LocateOwnImage(cur, nodes, q, newId);
    var next := Healed(damaged, nodes, hs + [q]);
    assert cur[q] == damaged[q];
    if Blank(cur[q].img.src) {
      assert LostSource(damaged[q], nodes[q]);
      assert Image(Repaired(cur[q].img, rec), cur[q].parent) == nodes[q];
      assert cur[q := nodes[q]] == next;
    } else {
      assert cur == next;
    }
  }

  lemma PrefixSnoc(ps: seq<nat>, m: nat)
    requires 0 < m <= |ps|
    ensures ps[..m] == ps[..m - 1] + [ps[m - 1]]
  {
  }

  /** One more record: the pass over the first `m` records is the pass over
      the first `m - 1` followed by the m-th. */
  lemma RestoreAllStep(nodes: seq<Node>, elements: set<Id>, recs: seq<AssetRecord>, m: nat, mid: seq<Node>)
    requires 0 < m <= |recs| && RestoreAll(nodes, elements, recs[..m - 1]) == Completed(mid)
    ensures RestoreAll(nodes, elements, recs[..m]) == RestoreOne(mid, elements, recs[m - 1])
  {
    assert recs[..m][..m - 1] == recs[..m - 1];
    assert recs[..m][m - 1] == recs[m - 1];
  }

  lemma HealNext(damaged: seq<Node>, nodes: seq<Node>, elements: set<Id>, gen: nat -> Id, m: nat)
    requires Healthy(nodes) && UniqueIds(nodes) && Cleared(damaged, nodes)
    requires 0 < m <= |ImagePositions(nodes)|
    requires RestoreAll(damaged, elements, Snapshot(nodes, gen)[..m - 1])
             == Completed(Healed(damaged, nodes, ImagePositions(nodes)[..m - 1]))
    ensures RestoreAll(damaged, elements, Snapshot(nodes, gen)[..m])
            == Completed(Healed(damaged, nodes, ImagePositions(nodes)[..m]))
  {
    var ps := ImagePositions(nodes);
    var recs := Snapshot(nodes, gen);
    RestoreAllStep(damaged, elements, recs, m, Healed(damaged, nodes, ps[..m - 1]));
    assert recs[m - 1] == RecordAt(nodes, ps[m - 1], gen(m - 1));
    PrefixSnoc(ps, m);
    HealStep(damaged, nodes, elements, ps[..m - 1], ps[m - 1], gen(m - 1));
  }

  /** The first `m` records of the snapshot heal exactly their own images. */
  lemma {:induction false} HealPrefix(damaged: seq<Node>, nodes: seq<Node>, elements: set<Id>, gen: nat -> Id, m: nat)
    requires Healthy(nodes) && UniqueIds(nodes) && Cleared(damaged, nodes)
    requires m <= |ImagePositions(nodes)|
    ensures RestoreAll(damaged, elements, Snapshot(nodes, gen)[..m])
            == Completed(Healed(damaged, nodes, ImagePositions(nodes)[..m]))
  {
    if m == 0 {
      assert Healed(damaged, nodes, ImagePositions(nodes)[..0]) == damaged;
      assert Snapshot(nodes, gen)[..0] == [];
    } else {
      HealPrefix(damaged, nodes, elements, gen, m - 1);
      HealNext(damaged, nodes, elements, gen, m);
    }
  }

  /** Healing every image position gives the undamaged document back. */
  lemma HealedAll(damaged: seq<Node>, nodes: seq<Node>)
    requires Cleared(damaged, nodes)
    ensures Healed(damaged, nodes, ImagePositions(nodes)) == nodes
  {
    var ps := ImagePositions(nodes);
    forall i | 0 <= i < |nodes| ensures Healed(damaged, nodes, ps)[i] == nodes[i] {
      if nodes[i].Image? {
        assert i in ps;
      }
    }
  }

  /** When images have unique ids, the pass against the snapshot of a
      document gives every image whose `src` was lost its recorded `src`,
      `alt` and class back, restoring the document exactly. */
  lemma RestoreHealsClearedSources(damaged: seq<Node>, nodes: seq<Node>, elements: set<Id>, gen: nat -> Id)
    requires Healthy(nodes) && UniqueIds(nodes) && Cleared(damaged, nodes)
    ensures RestoreAll(damaged, elements, Snapshot(nodes, gen)) == Completed(nodes)
  {
    var ps := ImagePositions(nodes);
    var recs := Snapshot(nodes, gen);
    HealPrefix(damaged, nodes, elements, gen, |ps|);
    assert recs[..|ps|] == recs;
    assert ps[..|ps|] == ps;
    HealedAll(damaged, nodes);
  }

  lemma ReinsertRemoved(nodes: seq<Node>, p: nat)
    requires p < |nodes|
    ensures Insert(nodes[..p] + nodes[p + 1..], p, nodes[p]) == nodes
  {
    var lost := nodes[..p] + nodes[p + 1..];
    assert lost[..p] == nodes[..p];
    assert lost[p..] == nodes[p + 1..];
  }

  lemma SplitAround(recs: seq<AssetRecord>, m: nat)
    requires m < |recs|
    ensures recs == recs[..m] + [recs[m]] + recs[m + 1..]
  {
  }

  /** The conditions under which a deleted image at `p` is recoverable:
      it is followed by an image in the same element, which is known to
      the document, every image has its own id and shows something, and
      no other image shows the same `src`. */
  predicate Recoverable(nodes: seq<Node>, elements: set<Id>, p: nat) {
    && p + 1 < |nodes| && nodes[p].Image? && nodes[p + 1].Image?
    && nodes[p + 1].parent == nodes[p].parent
    && nodes[p].parent != "" && nodes[p].parent in elements
    && Healthy(nodes) && UniqueIds(nodes)
    && (forall j :: 0 <= j < |nodes| && j != p ==> !HasSrc(nodes[j], nodes[p].img.src))
  }

  /** The records of the images before the deleted one change nothing. */
  lemma BeforeLostUnchanged(nodes: seq<Node>, elements: set<Id>, gen: nat -> Id, p: nat, m: nat)
    requires Recoverable(nodes, elements, p)
    requires m < |ImagePositions(nodes)| && ImagePositions(nodes)[m] == p
    ensures var lost := nodes[..p] + nodes[p + 1..];
      RestoreAll(lost, elements, Snapshot(nodes, gen)[..m]) == Completed(lost)
  {
    var ps := ImagePositions(nodes);
    var recs := Snapshot(nodes, gen);
    var lost := nodes[..p] + nodes[p + 1..];
    assert forall j :: 0 <= j < p ==> lost[j] == nodes[j];
    assert forall j :: p <= j < |lost| ==> lost[j] == nodes[j + 1];
    forall i | 0 <= i < |lost| && lost[i].Image? ensures !Blank(lost[i].img.src) {
      if i >= p { assert lost[i] == nodes[i + 1]; }
    }
    forall k | 0 <= k < m ensures SrcPresent(lost, recs[..m][k].src) {
      assert ps[k] < p;
      assert recs[..m][k] == recs[k] == RecordAt(nodes, ps[k], gen(k));
      assert HasSrc(lost[ps[k]], recs[k].src);
    }
    RestoreLeavesHealthyAlone(lost, elements, recs[..m]);
  }

  /** The deleted image's own record is not found, and puts the image back
      before its next sibling. */
  lemma LostRecordReinserts(nodes: seq<Node>, elements: set<Id>, p: nat, newId: Id)
    requires Recoverable(nodes, elements, p)
    ensures RestoreOne(nodes[..p] + nodes[p + 1..], elements, RecordAt(nodes, p, newId)) == Completed(nodes)
  {
    var lost := nodes[..p] + nodes[p + 1..];
    var rec := RecordAt(nodes, p, newId);
    assert forall j :: 0 <= j < p ==> lost[j] == nodes[j];
    assert forall j :: p <= j < |lost| ==> lost[j] == nodes[j + 1];
    forall j | 0 <= j < |lost| ensures !HasId(lost[j], rec.id) && !HasSrc(lost[j], rec.src) {
      if j >= p { assert lost[j] == nodes[j + 1]; }
    }
    assert Locate(lost, rec).None?;
    assert rec.nextSiblingId == nodes[p + 1].img.id;
    assert HasId(lost[p], rec.nextSiblingId);
    assert FindById(lost, rec.nextSiblingId) == Some(p);
    ReinsertRemoved(nodes, p);
  }

  /** A pass that leaves the document alone up to record `m`, turns it into
      `end` at record `m`, and leaves `end` alone after that, ends in `end`. */
  lemma RestoreAllAround(start: seq<Node>, elements: set<Id>, recs: seq<AssetRecord>, m: nat, end: seq<Node>)
    requires m < |recs|
    requires RestoreAll(start, elements, recs[..m]) == Completed(start)
    requires RestoreOne(start, elements, recs[m]) == Completed(end)
    requires RestoreAll(end, elements, recs[m + 1..]) == Completed(end)
    ensures RestoreAll(start, elements, recs) == Completed(end)
  {
    var rec := recs[m];
    SplitAround(recs, m);
    RestoreAllConcat(start, elements, recs[..m], [rec]);
    assert RestoreAll(start, elements, [rec]) == RestoreOne(start, elements, rec) by {
      assert [rec][..0] == [];
    }
    RestoreAllConcat(start, elements, recs[..m] + [rec], recs[m + 1..]);
  }

  /** The records after any position leave a healthy document alone. */
  lemma AfterLostUnchanged(nodes: seq<Node>, elements: set<Id>, gen: nat -> Id, m: nat)
    requires Healthy(nodes) && m < |Snapshot(nodes, gen)|
    ensures RestoreAll(nodes, elements, Snapshot(nodes, gen)[m + 1..]) == Completed(nodes)
  {
    var recs := Snapshot(nodes, gen);
    SnapshotSourcesPresent(nodes, gen);
    var tail := recs[m + 1..];
    forall k | 0 <= k < |tail| ensures SrcPresent(nodes, tail[k].src) {
      assert tail[k] == recs[m + 1 + k];
    }
    RestoreLeavesHealthyAlone(nodes, elements, tail);
  }

  /** An image the substitution deleted is put back by the pass just before
      the image that followed it in the same element, provided ids are
      unique and no other image shows the same `src`. */
  lemma RestoreReinsertsLost(nodes: seq<Node>, elements: set<Id>, gen: nat -> Id, p: nat)
    requires Recoverable(nodes, elements, p)
    ensures RestoreAll(nodes[..p] + nodes[p + 1..], elements, Snapshot(nodes, gen)) == Completed(nodes)
  {
    var ps := ImagePositions(nodes);
    var recs := Snapshot(nodes, gen);
    var m :| 0 <= m < |ps| && ps[m] == p;
    var lost := nodes[..p] + nodes[p + 1..];
    assert recs[m] == RecordAt(nodes, p, gen(m));
    BeforeLostUnchanged(nodes, elements, gen, p, m);
    LostRecordReinserts(nodes, elements, p, gen(m));
    AfterLostUnchanged(nodes, elements, gen, m);
    RestoreAllAround(lost, elements, recs, m, nodes);
  }

  /** Where an image found neither by id nor by `src` goes back: nowhere
      when its recorded parent is gone; just before its recorded next
      sibling when that is found in the same element; after everything in
      the element when there is no sibling to go by; and a sibling found in
      another element makes `insertBefore` throw, which ends the pass. */
  lemma ReinsertPlacement(nodes: seq<Node>, elements: set<Id>, rec: AssetRecord)
    requires Locate(nodes, rec).None?
    ensures var res := RestoreOne(nodes, elements, rec);
      var lost := Image(rec.form, rec.parentId);
      var sibling := FindById(nodes, rec.nextSiblingId);
      && (rec.parentId == "" || rec.parentId !in elements ==> res == Completed(nodes))
      && (rec.parentId != "" && rec.parentId in elements ==>
            && (sibling.Some? && nodes[sibling.value].parent == rec.parentId ==>
                  res == Completed(Insert(nodes, sibling.value, lost)))
            && (sibling.Some? && nodes[sibling.value].parent != rec.parentId ==> res == Aborted(nodes))
            && (sibling.None? ==>
                  exists q :: 0 <= q <= |nodes| && res == Completed(Insert(nodes, q, lost))
                    && (forall j :: q <= j < |nodes| ==> nodes[j].parent != rec.parentId)
                    && ((exists j :: 0 <= j < |nodes| && nodes[j].parent == rec.parentId) ==>
                          0 < q && nodes[q - 1].parent == rec.parentId)
                    && ((forall j :: 0 <= j < |nodes| ==> nodes[j].parent != rec.parentId) ==> q == |nodes|)))
  {
    if rec.parentId != "" && rec.parentId in elements && FindById(nodes, rec.nextSiblingId).None? {
      var q := AppendPoint(nodes, rec.parentId);
      assert RestoreOne(nodes, elements, rec) == Completed(Insert(nodes, q, Image(rec.form, rec.parentId)));
    }
  }
}

=== FILE: dom.dfy ===
/** The report display (`#report-display`) as the session sees it: a flat
    sequence of nodes in document order, each knowing the id of the element
    that contains it, plus the set of ids of the other elements in it. A
    DOM Range becomes a pair of indices into that sequence. */
module ReportDom {

  type Id = string

  /** An `<img>`: its `id`, `src`, `alt`, `class` and `data-original-src`
      attributes; an absent attribute is the empty string. */
  datatype Img = Img(id: Id, src: string, alt: string, cls: string, originalSrc: string)

  /** One character of a text node, a `<br>`, or an image; `parent` is the id
      of the element the node sits in ("" when that element has no id). */
  datatype Node =
    | Char(c: char, parent: Id)
    | Break(parent: Id)
    | Image(img: Img, parent: Id)

  /** A DOM Range: the nodes from `start` up to, not including, `end`. */
  datatype Range = Range(start: nat, end: nat)

  predicate InDoc(nodes: seq<Node>, r: Range) {
    r.start <= r.end <= |nodes|
  }

  /** `toString()` of the nodes: their characters; images and breaks add none. */
  function TextOf(ns: seq<Node>): string {
    if ns == [] then ""
    else (if ns[0].Char? then [ns[0].c] else "") + TextOf(ns[1..])
  }

  lemma {:induction false} TextOfConcat(a: seq<Node>, b: seq<Node>)
    ensures TextOf(a + b) == TextOf(a) + TextOf(b)
  {
    if a != [] {
      assert (a + b)[1..] == a[1..] + b;
      TextOfConcat(a[1..], b);
    } else {
      assert a + b == b;
    }
  }

  /** `range.toString()`. */
  function RangeText(nodes: seq<Node>, r: Range): string
    requires InDoc(nodes, r)
  {
    TextOf(nodes[r.start..r.end])
  }

  /** The characters of `s` other than '\n'. */
  function WithoutNewlines(s: string): (r: string)
    ensures '\n' !in r
  {
    if s == [] then ""
    else (if s[0] == '\n' then "" else [s[0]]) + WithoutNewlines(s[1..])
  }

  /** The content node built from refined text (script.js:726-727): each
      '\n' a `<br>`, every other character a character. In the script they
      sit in a new `<span>` without an id; here they are placed directly in
      `host`, the element the span goes into, so the span is not a node of
      the model and an `appendChild` to `host` lands after them. */
  function TextNodes(text: string, host: Id): (ns: seq<Node>)
    ensures |ns| == |text|
    ensures forall n :: n in ns ==> !n.Image? && n.parent == host
  {
    if text == [] then []
    else [if text[0] == '\n' then Break(host) else Char(text[0], host)] + TextNodes(text[1..], host)
  }

  /** The refined text reads back as itself, less its line breaks. */
  lemma {:induction false} TextNodesRead(text: string, host: Id)
    ensures TextOf(TextNodes(text, host)) == WithoutNewlines(text)
  {
    if text != [] {
      var ns := TextNodes(text, host);
      assert ns[1..] == TextNodes(text[1..], host);
      TextNodesRead(text[1..], host);
    }
  }

  /** The element a range starts in, which receives the inserted content. */
  function HostAt(nodes: seq<Node>, start: nat): Id {
    if start < |nodes| then nodes[start].parent
    else if 0 < start <= |nodes| then nodes[start - 1].parent
    else ""
  }

  /** `range.deleteContents()` then `range.insertNode(span)` with the span
      holding `text` (script.js:726-731). */
  function Substitute(nodes: seq<Node>, r: Range, text: string): seq<Node>
    requires InDoc(nodes, r)
  {
    nodes[..r.start] + TextNodes(text, HostAt(nodes, r.start)) + nodes[r.end..]
  }

  /** After the substitution, the nodes before the range are untouched, the
      nodes after it follow the new content, and the new content reads as the
      refined text without its line breaks. */
  lemma SubstituteReadsRefined(nodes: seq<Node>, r: Range, text: string)
    requires InDoc(nodes, r)
    ensures var n' := Substitute(nodes, r, text);
      && |n'| == |nodes| - (r.end - r.start) + |text|
      && n'[..r.start] == nodes[..r.start]
      && n'[r.start + |text|..] == nodes[r.end..]
      && InDoc(n', Range(r.start, r.start + |text|))
      && RangeText(n', Range(r.start, r.start + |text|)) == WithoutNewlines(text)
  {
    var n' := Substitute(nodes, r, text);
    var host := HostAt(nodes, r.start);
    assert n'[r.start..r.start + |text|] == TextNodes(text, host);
    TextNodesRead(text, host);
  }

  // ---- Images -------------------------------------------------------------

  /** Number of images among `nodes`: `querySelectorAll('img').length`. */
  function ImageCount(nodes: seq<Node>): nat {
    if nodes == [] then 0
    else ImageCount(nodes[..|nodes| - 1]) + (if nodes[|nodes| - 1].Image? then 1 else 0)
  }

  /** What `protectImages` does to one image (script.js:246-252), `newId`
      being the id made for it from the clock and its position. */
  function ProtectImg(img: Img, newId: Id): Img {
    img.(id := if img.id == "" then newId else img.id,
         originalSrc := if img.originalSrc == "" then img.src else img.originalSrc)
  }

  function ProtectNode(n: Node, newId: Id): Node {
    if n.Image? then Image(ProtectImg(n.img, newId), n.parent) else n
  }

  /** The document after `protectImages`: the k-th image is given the id
      `gen(k)` if it has none. */
  function Protected(nodes: seq<Node>, gen: nat -> Id): seq<Node> {
    if nodes == [] then []
    else
      var pre := nodes[..|nodes| - 1];
      Protected(pre, gen) + [ProtectNode(nodes[|nodes| - 1], gen(ImageCount(pre)))]
  }

  /** `Protected` acts node by node, the k-th image receiving `gen(k)`. */
  lemma {:induction false} ProtectedAt(nodes: seq<Node>, gen: nat -> Id)
    ensures |Protected(nodes, gen)| == |nodes|
    ensures forall i :: 0 <= i < |nodes| ==>
              Protected(nodes, gen)[i] == ProtectNode(nodes[i], gen(ImageCount(nodes[..i])))
  {
    if nodes != [] {
      var pre := nodes[..|nodes| - 1];
      ProtectedAt(pre, gen);
      forall i | 0 <= i < |nodes|
        ensures Protected(nodes, gen)[i] == ProtectNode(nodes[i], gen(ImageCount(nodes[..i])))
      {
        if i < |pre| {
          assert nodes[..i] == pre[..i];
        }
      }
    }
  }

  /** `protectImages` fills only what is missing: text and breaks are left
      alone; of an image only an empty id and an empty `data-original-src`
      change, to a fresh id and to the image's `src`. */
  lemma ProtectFillsOnlyMissing(nodes: seq<Node>, gen: nat -> Id)
    requires forall k :: gen(k) != ""
    ensures var p := Protected(nodes, gen);
      && |p| == |nodes|
      && (forall i :: 0 <= i < |nodes| && !nodes[i].Image? ==> p[i] == nodes[i])
      && (forall i :: 0 <= i < |nodes| && nodes[i].Image? ==>
            && p[i].Image? && p[i].parent == nodes[i].parent
            && p[i].img.(id := nodes[i].img.id, originalSrc := nodes[i].img.originalSrc) == nodes[i].img
            && p[i].img.id != ""
            && (nodes[i].img.id != "" ==> p[i].img.id == nodes[i].img.id)
            && p[i].img.originalSrc == (if nodes[i].img.originalSrc == "" then nodes[i].img.src
                                        else nodes[i].img.originalSrc))
  {
    ProtectedAt(nodes, gen);
  }

  /** An image `protectImages` leaves as it is: it has an id, and its
      `data-original-src` is set unless its `src` is empty too. */
  predicate Guarded(img: Img) {
    img.id != "" && (img.originalSrc != "" || img.src == "")
  }

  /** Every image is guarded after `protectImages`, given ids that are
      never empty. */
  lemma ProtectGuards(nodes: seq<Node>, gen: nat -> Id)
    requires forall k :: gen(k) != ""
    ensures forall n :: n in Protected(nodes, gen) && n.Image? ==> Guarded(n.img)
  {
    ProtectedAt(nodes, gen);
    var p := Protected(nodes, gen);
    forall n | n in p && n.Image? ensures Guarded(n.img) {
      var i :| 0 <= i < |p| && p[i] == n;
    }
  }

  lemma {:induction false} ImageCountMonotone(nodes: seq<Node>, a: nat, b: nat)
    requires a <= b <= |nodes|
    ensures ImageCount(nodes[..a]) <= ImageCount(nodes[..b])
    decreases b
  {
    if a < b {
      assert nodes[..b][..b - 1] == nodes[..b - 1];
      ImageCountMonotone(nodes, a, b - 1);
    }
  }

  /** An image is counted by every prefix that reaches past it, so the
      images are numbered 0, 1, 2, ... in document order. */
  lemma ImageCountGrows(nodes: seq<Node>, i: nat, j: nat)
    requires i < j <= |nodes| && nodes[i].Image?
    ensures ImageCount(nodes[..i]) < ImageCount(nodes[..j])
  {
    assert nodes[..i + 1][..i] == nodes[..i];
    ImageCountMonotone(nodes, i + 1, j);
  }

  /** Every image has its own id after `protectImages`, given fresh ids that
      are never empty, differ from each other and from every id already in
      the report, and a report whose own image ids do not repeat. */
  lemma ProtectUniqueIds(nodes: seq<Node>, gen: nat -> Id)
    requires forall k :: gen(k) != ""
    requires forall k, l :: k != l ==> gen(k) != gen(l)
    requires forall k, i :: 0 <= i < |nodes| && nodes[i].Image? ==> gen(k) != nodes[i].img.id
    requires forall i, j :: 0 <= i < j < |nodes| && nodes[i].Image? && nodes[j].Image? && nodes[i].img.id != "" ==>
               nodes[i].img.id != nodes[j].img.id
    ensures var p := Protected(nodes, gen);
      && (forall i :: 0 <= i < |p| && p[i].Image? ==> p[i].img.id != "")
      && (forall i, j :: 0 <= i < j < |p| && p[i].Image? && p[j].Image? ==> p[i].img.id != p[j].img.id)
  {
    ProtectedAt(nodes, gen);
    var p := Protected(nodes, gen);
    forall i, j | 0 <= i < j < |p| && p[i].Image? && p[j].Image?
      ensures p[i].img.id != p[j].img.id
    {
      if nodes[i].img.id == "" && nodes[j].img.id == "" {
        ImageCountGrows(nodes, i, j);
      }
    }
  }

  /** `protectImages` changes nothing when every image is guarded. */
  lemma ProtectFixesGuarded(nodes: seq<Node>, gen: nat -> Id)
    requires forall n :: n in nodes && n.Image? ==> Guarded(n.img)
    ensures Protected(nodes, gen) == nodes
  {
    ProtectedAt(nodes, gen);
    forall i | 0 <= i < |nodes| ensures Protected(nodes, gen)[i] == nodes[i] {
      assert nodes[i] in nodes;
    }
  }

  /** A second `protectImages` changes nothing, whatever ids it would make. */
  lemma ProtectIdempotent(nodes: seq<Node>, gen: nat -> Id, gen2: nat -> Id)
    requires forall k :: gen(k) != ""
    ensures Protected(Protected(nodes, gen), gen2) == Protected(nodes, gen)
  {
    ProtectGuards(nodes, gen);
    ProtectFixesGuarded(Protected(nodes, gen), gen2);
  }

  /** The report display: its nodes and the ids of its other elements. The
      script changes the nodes in place; the elements themselves are never
      removed in this model. */
  class ReportView {
    var nodes: seq<Node>
    var elements: set<Id>

    constructor (nodes: seq<Node>, elements: set<Id>)
      ensures this.nodes == nodes && this.elements == elements
    {
      this.nodes := nodes;
      this.elements := elements;
    }

    /** `protectImages` (script.js:243-253): one pass over the images in
        document order; `gen(k)` stands for `protected-img-<now>-<k>`. */
    method ProtectImages(gen: nat -> Id)
      modifies this
      ensures nodes == Protected(old(nodes), gen)
      ensures elements == old(elements)
    {
      ghost var before := nodes;
      var i, k := 0, 0;
      while i < |nodes|
        invariant 0 <= i <= |nodes| == |before|
        invariant k == ImageCount(before[..i])
        invariant nodes[..i] == Protected(before[..i], gen)
        invariant forall j :: i <= j < |nodes| ==> nodes[j] == before[j]
        invariant elements == old(elements)
      {
        assert before[..i + 1][..i] == before[..i];
        var n := nodes[i];
        assert n == before[i];
        if n.Image? {
          nodes := nodes[i := Image(ProtectImg(n.img, gen(k)), n.parent)];
          k := k + 1;
        }
        i := i + 1;
      }
      assert before[..i] == before;
    }

    /** The text substitution of `applyRefinement` (script.js:726-731). */
    method ReplaceRange(r: Range, text: string)
      requires InDoc(nodes, r)
      modifies this
      ensures nodes == Substitute(old(nodes), r, text)
      ensures elements == old(elements)
    {
      nodes := Substitute(nodes, r, text);
    }
  }
}

=== FILE: keys.dfy ===
/** The two key-sequence matchers of the page's global `keydown` handler
    (script.js:199-238): the Konami code and the word "ERIC", each an index
    into a fixed list of key codes that one key event advances, resets or
    fires. What firing does on screen is not part of this model. */
module KeyCodes {

  /** Up Up Down Down Left Right Left Right B A. */
  const Konami: seq<int> := [38, 38, 40, 40, 37, 39, 37, 39, 66, 65]
  /** E R I C. */
  const Eric: seq<int> := [69, 82, 73, 67]

  /** One key event for one matcher at `index`: the expected key advances
      the index, and the last expected key fires and goes back to 0; any
      other key goes back to 0 without being tried as the first key. */
  function Step(code: seq<int>, index: nat, key: int): (r: (nat, bool))
    requires index < |code|
    ensures r.0 < |code|
  {
    if key == code[index] then
      if index + 1 == |code| then (0, true) else (index + 1, false)
    else (0, false)
  }

  /** The index after `keys`, starting from 0. */
  function Run(code: seq<int>, keys: seq<int>): (index: nat)
    requires |code| > 0
    ensures index < |code|
  {
    if keys == [] then 0
    else Step(code, Run(code, keys[..|keys| - 1]), keys[|keys| - 1]).0
  }

  /** Whether the last of `keys` fires the matcher. */
  predicate Fires(code: seq<int>, keys: seq<int>)
    requires |code| > 0
  {
    keys != [] && Step(code, Run(code, keys[..|keys| - 1]), keys[|keys| - 1]).1
  }

  /** The index always counts how much of the code the latest keys spell. */
  lemma {:induction false} IndexIsTypedPrefix(code: seq<int>, keys: seq<int>)
    requires |code| > 0
    ensures Run(code, keys) <= |keys|
    ensures keys[|keys| - Run(code, keys)..] == code[..Run(code, keys)]
  {
    if keys != [] {
      var pre := keys[..|keys| - 1];
      IndexIsTypedPrefix(code, pre);
      var i := Run(code, pre);
      if keys[|keys| - 1] == code[i] && i + 1 < |code| {
        assert keys[|keys| - (i + 1)..] == pre[|pre| - i..] + [code[i]];
        assert code[..i + 1] == code[..i] + [code[i]];
      }
    }
  }

  /** A matcher fires only when the latest keys are exactly its whole code. */
  lemma FiringMeansCodeTyped(code: seq<int>, keys: seq<int>)
    requires |code| > 0
    requires Fires(code, keys)
    ensures |keys| >= |code| && keys[|keys| - |code|..] == code
  {
    var pre := keys[..|keys| - 1];
    IndexIsTypedPrefix(code, pre);
    var i := Run(code, pre);
    assert i + 1 == |code| && keys[|keys| - 1] == code[i];
    assert keys[|keys| - |code|..] == pre[|pre| - i..] + [code[i]];
    assert code == code[..i] + [code[i]];
  }

  /** From index 0, typing the code advances one step per key, does not
      fire before the last key, fires on it, and leaves the index at 0. */
  lemma {:induction false} TypingCodeFires(code: seq<int>, pre: seq<int>, k: nat)
    requires |code| > 0 && Run(code, pre) == 0 && 0 < k <= |code|
    ensures k < |code| ==> Run(code, pre + code[..k]) == k && !Fires(code, pre + code[..k])
    ensures k == |code| ==> Run(code, pre + code[..k]) == 0 && Fires(code, pre + code[..k])
  {
    var keys := pre + code[..k];
    assert keys[..|keys| - 1] == pre + code[..k - 1];
    assert keys[|keys| - 1] == code[k - 1];
    if k > 1 {
      TypingCodeFires(code, pre, k - 1);
    } else {
      assert pre + code[..0] == pre;
    }
  }

  lemma RunExtends(code: seq<int>, keys: seq<int>, k: nat)
    requires |code| > 0 && k < |keys|
    ensures Run(code, keys[..k + 1]) == Step(code, Run(code, keys[..k]), keys[k]).0
  {
    assert keys[..k + 1][..k] == keys[..k];
  }

  /** A key that breaks the sequence is not retried as its first key:
      an extra Up in front of the Konami code ("Up Up Up Down ...") sends
      the index back to 0 on the third Up, so the code never fires. */
  lemma ExtraUpDefeatsKonami()
    ensures Run(Konami, [38, 38, 38]) == 0
    ensures !Fires(Konami, [38] + Konami)
  {
    var keys := [38] + Konami;
    assert keys[..0] == [];
    RunExtends(Konami, keys, 0);
    RunExtends(Konami, keys, 1);
    RunExtends(Konami, keys, 2);
    assert keys[..3] == [38, 38, 38];
    RunExtends(Konami, keys, 3);
    RunExtends(Konami, keys, 4);
    RunExtends(Konami, keys, 5);
    RunExtends(Konami, keys, 6);
    RunExtends(Konami, keys, 7);
    RunExtends(Konami, keys, 8);
    RunExtends(Konami, keys, 9);
    assert keys[..|keys| - 1] == keys[..10];
  }

  /** The state of the `keydown` handler: one index per matcher. */
  class KeyWatcher {
    var konamiIndex: nat
    var ericIndex: nat
    /** The keys pressed outside INPUT and TEXTAREA fields since the last key
        pressed inside one (or since the page loaded). */
    ghost var typed: seq<int>

    ghost predicate Valid()
      reads this
    {
      konamiIndex == Run(Konami, typed) && ericIndex == Run(Eric, typed)
    }

    constructor ()
      ensures Valid() && typed == []
      ensures konamiIndex == 0 && ericIndex == 0
    {
      konamiIndex, ericIndex := 0, 0;
      typed := [];
    }

    /** One key event. A key typed into an INPUT or TEXTAREA resets both
        matchers; any other key is fed to each matcher on its own, and the
        results say which of them fired. */
    method KeyDown(targetTag: string, key: int) returns (konamiFired: bool, ericFired: bool)
      requires Valid()
      modifies this
      ensures Valid()
      ensures targetTag == "INPUT" || targetTag == "TEXTAREA" ==>
                typed == [] && konamiIndex == 0 && ericIndex == 0 && !konamiFired && !ericFired
      ensures targetTag != "INPUT" && targetTag != "TEXTAREA" ==>
                && typed == old(typed) + [key]
                && (konamiIndex, konamiFired) == Step(Konami, old(konamiIndex), key)
                && (ericIndex, ericFired) == Step(Eric, old(ericIndex), key)
                && konamiFired == Fires(Konami, typed)
                && ericFired == Fires(Eric, typed)
    {
      if targetTag == "INPUT" || targetTag == "TEXTAREA" {
        konamiIndex, ericIndex := 0, 0;
        typed := [];
        return false, false;
      }
      typed := typed + [key];
      assert typed[..|typed| - 1] == old(typed);

      konamiFired := false;
      if key == Konami[konamiIndex] {
        konamiIndex := konamiIndex + 1;
        if konamiIndex == |Konami| {
          konamiFired := true;
          konamiIndex := 0;
        }
      } else {
        konamiIndex := 0;
      }

      ericFired := false;
      if key == Eric[ericIndex] {
        ericIndex := ericIndex + 1;
        if ericIndex == |Eric| {
          ericFired := true;
          ericIndex := 0;
        }
      } else {
        ericIndex := 0;
      }
    }
  }
}

=== FILE: naming.dfy ===
/** How the script names reports: the label shown in the report list
    (script.js:125), the name a `?report=` URL parameter is matched against
    (script.js:64), the search for that report in the list (script.js:55-76),
    and the file name the save dialog proposes and accepts (script.js:553-570). */
module Naming {
  import opened JsText
  import opened Wrappers

  /** An entry of the report list: its `data-id` and its full `data-name`,
      which may carry a folder path ("Folder / file.docx"). */
  datatype ListItem = ListItem(id: string, name: string)

  /** The label of a report in the list: the last path segment, trimmed,
      but only when the name holds a '/'; otherwise the name untouched. */
  function DisplayName(name: string): string {
    if '/' in name then Trim(LastSegment(name)) else name
  }

  /** The name a list entry is matched against: always the last path
      segment, trimmed. */
  function MatchName(name: string): string {
    Trim(LastSegment(name))
  }

  lemma {:induction false} LastSegmentOfPlain(s: string)
    requires '/' !in s
    ensures LastSegment(s) == s
  {
    if s != [] {
      LastSegmentOfPlain(s[..|s| - 1]);
    }
  }

  lemma {:induction false} LastSegmentAfterSlash(folder: string, s: string)
    requires '/' !in s
    ensures LastSegment(folder + "/" + s) == s
  {
    var n := folder + "/" + s;
    if s != [] {
      assert n[..|n| - 1] == folder + "/" + s[..|s| - 1];
      LastSegmentAfterSlash(folder, s[..|s| - 1]);
    }
  }

  /** Matching a name that is already a match name changes nothing. */
  lemma MatchNameIdempotent(name: string)
    ensures MatchName(MatchName(name)) == MatchName(name)
  {
    var t := Trim(LastSegment(name));
    TrimIsCore(LastSegment(name));
    assert '/' !in t by {
      var i, j :| 0 <= i <= j <= |LastSegment(name)| && t == LastSegment(name)[i..j];
    }
    LastSegmentOfPlain(t);
    TrimIdempotent(LastSegment(name));
  }

  /** The list label and the match name agree exactly when the name holds
      a folder separator or has no white space at its ends: a folder-less
      name with surrounding spaces is shown with them but matched without. */
  lemma DisplayAgreesWithMatch(name: string)
    ensures DisplayName(name) == MatchName(name) <==> ('/' in name || Trimmed(name))
  {
    if '/' !in name {
      LastSegmentOfPlain(name);
      TrimFixesExactlyTrimmed(name);
    }
  }

  /** Whether a list entry is the report a URL parameter asks for. */
  predicate Matches(item: ListItem, reportName: string) {
    MatchName(item.name) == reportName
  }

  /** What the URL-parameter search ends in. */
  datatype Lookup = Retry | Found(index: nat) | NotFound

  /** The search of script.js:55-76: an empty list without an error entry
      means "try again later"; otherwise the first entry whose match name
      equals the requested name is chosen, or none. */
  method FindReport(items: seq<ListItem>, listHasError: bool, reportName: string)
    returns (r: Lookup)
    ensures r == Retry <==> (|items| == 0 && !listHasError)
    ensures r.Found? ==> r.index < |items| && Matches(items[r.index], reportName)
    ensures r.Found? ==> forall j :: 0 <= j < r.index ==> !Matches(items[j], reportName)
    ensures r == NotFound ==> forall j :: 0 <= j < |items| ==> !Matches(items[j], reportName)
  {
    if |items| == 0 && !listHasError {
      return Retry;
    }
    var i := 0;
    while i < |items|
      invariant 0 <= i <= |items|
      invariant forall j :: 0 <= j < i ==> !Matches(items[j], reportName)
    {
      if Matches(items[i], reportName) {
        return Found(i);
      }
      i := i + 1;
    }
    return NotFound;
  }

  const Docx := ".docx"
  const RefinedSuffix := "_refined"

  /** The name the save dialog proposes: the match name with its first
      ".docx" removed (wherever it occurs) and "_refined" appended. */
  function SuggestedName(reportName: string): string {
    ReplaceFirst(MatchName(reportName), Docx, "") + RefinedSuffix
  }

  /** The match name of "<folder>/<spaces><base>.docx", for a base that holds
      no '/' and does not start with white space, is "<base>.docx". */
  lemma MatchNameOfDocxPath(folder: string, w: string, base: string)
    requires AllSpace(w) && '/' !in w + base
    requires base == [] || !IsSpace(base[0])
    ensures MatchName(folder + "/" + w + base + Docx) == base + Docx
  {
    var t := base + Docx;
    var seg := w + t;
    var n := folder + "/" + w + base + Docx;
    assert n == folder + "/" + seg;
    assert '/' !in seg by {
      assert seg == (w + base) + Docx;
    }
    LastSegmentAfterSlash(folder, seg);
    assert Trimmed(t) by {
      assert t[|t| - 1] == 'x';
    }
    TrimAround(w, t, []);
    assert w + t + [] == seg;
  }

  /** A file "<folder>/<spaces><base>.docx" whose base holds no '/', does
      not start with white space and has no earlier ".docx" is proposed as
      "<base>_refined". */
  lemma SuggestedNameOfDocx(folder: string, w: string, base: string)
    requires AllSpace(w) && '/' !in w + base
    requires base == [] || !IsSpace(base[0])
    requires forall k :: 0 <= k < |base| ==> !OccursAt(base + Docx, Docx, k)
    ensures SuggestedName(folder + "/" + w + base + Docx) == base + RefinedSuffix
  {
    var t := base + Docx;
    MatchNameOfDocxPath(folder, w, base);
    assert OccursAt(t, Docx, |base|) by {
      assert t[|base|..|base| + |Docx|] == Docx;
    }
    FirstOccurrence(t, Docx, |base|);
    DropDocx(base);
  }

  lemma DropDocx(base: string)
    requires IndexOf(base + Docx, Docx) == |base|
    ensures ReplaceFirst(base + Docx, Docx, "") == base
  {
    var t := base + Docx;
    assert |Docx| == 5;
    assert t[..|base|] == base;
    assert t[|base| + 5..] == [];
  }

  /** What the save dialog decides. */
  datatype SaveName = Abort | UseName(name: string)

  /** The dialog of script.js:557-570: a cancelled prompt (`None`) takes the
      suggested name; an empty or all-white-space answer aborts the save;
      any other answer is used exactly as typed, untrimmed. */
  function ChooseSaveName(reportName: string, answer: Option<string>): (r: SaveName)
    ensures answer.Some? ==> (r == Abort <==> AllSpace(answer.value))
    ensures answer.Some? && r.UseName? ==> r.name == answer.value
    ensures answer.None? ==> r == UseName(SuggestedName(reportName))
  {
    var chosen := match answer case None => SuggestedName(reportName) case Some(a) => a;
    TrimEmptyIffAllSpace(chosen);
    assert answer.None? ==> !AllSpace(chosen) by {
      if answer.None? {
        assert chosen[|chosen| - 1] == 'd';
      }
    }
    if Trim(chosen) == [] then Abort else UseName(chosen)
  }
}

=== FILE: selection.dfy ===
/** The current selection (`currentSelection`): what `handleTextSelection`
    stores (script.js:490-500) and the check `applyRefinement` makes before
    it substitutes anything (script.js:678-691). */
module Selection {
  import opened Wrappers
  import opened JsText
  import opened ReportDom

  /** The selected text and the range it was read from; `range` is absent
      after a reset. */
  datatype Selection = Selection(range: Option<Range>, text: string)

  /** `{ range: null, text: '' }`, as `resetRefinePanel` leaves it. */
  const NoSelection := Selection(None, "")

  /** The check of script.js:680-685: the stored range still exists and
      still reads as the stored text. A missing range makes `cloneRange`
      throw, which the script also treats as a stale selection. */
  predicate Fresh(nodes: seq<Node>, sel: Selection) {
    sel.range.Some? && InDoc(nodes, sel.range.value) && RangeText(nodes, sel.range.value) == sel.text
  }

  /** `handleTextSelection` as written: the text is trimmed, the range is
      stored as the user made it; nothing is stored when the trimmed text is
      empty. */
  function CaptureAsWritten(nodes: seq<Node>, r: Range): (s: Option<Selection>)
    requires InDoc(nodes, r)
  {
    var t := Trim(RangeText(nodes, r));
    if |t| > 0 then Some(Selection(Some(r), t)) else None
  }

  /** As written, a captured selection passes the freshness check exactly
      when the selected text had no white space at either end: a selection
      that starts or ends in white space is refused as stale even though
      nothing has changed. */
  lemma AsWrittenFreshIffTrimmed(nodes: seq<Node>, r: Range)
    requires InDoc(nodes, r) && CaptureAsWritten(nodes, r).Some?
    ensures Fresh(nodes, CaptureAsWritten(nodes, r).value) <==> Trimmed(RangeText(nodes, r))
  {
    TrimFixesExactlyTrimmed(RangeText(nodes, r));
  }

  /** The smallest such case: selecting "a " and applying a refinement
      straight away. */
  lemma AsWrittenRefusesTrailingSpace()
    ensures var nodes := [Char('a', "p"), Char(' ', "p")];
      && CaptureAsWritten(nodes, Range(0, 2)) == Some(Selection(Some(Range(0, 2)), "a"))
      && !Fresh(nodes, CaptureAsWritten(nodes, Range(0, 2)).value)
  {
    var nodes := [Char('a', "p"), Char(' ', "p")];
    assert nodes[0..2] == nodes;
    assert TextOf(nodes[1..]) == " " by {
      assert nodes[1..][1..] == [];
    }
    assert RangeText(nodes, Range(0, 2)) == "a ";
    assert Trim("a ") == "a" by {
      TrimAround("", "a", " ");
      assert "" + "a" + " " == "a ";
    }
  }

  // ---- The corrected capture ----------------------------------------------

  /** A node that `trim` keeps when it reads the range: a character that is
      not white space. */
  predicate Visible(n: Node) {
    n.Char? && !IsSpace(n.c)
  }

  /** The first visible node in [lo, hi), or `hi`. */
  function FirstVisible(nodes: seq<Node>, lo: nat, hi: nat): (k: nat)
    requires lo <= hi <= |nodes|
    ensures lo <= k <= hi
    ensures forall i :: lo <= i < k ==> !Visible(nodes[i])
    ensures k < hi ==> Visible(nodes[k])
    decreases hi - lo
  {
    if lo == hi || Visible(nodes[lo]) then lo else FirstVisible(nodes, lo + 1, hi)
  }

  /** One past the last visible node in [lo, hi), or `lo`. */
  function AfterLastVisible(nodes: seq<Node>, lo: nat, hi: nat): (k: nat)
    requires lo <= hi <= |nodes|
    ensures lo <= k <= hi
    ensures forall i :: k <= i < hi ==> !Visible(nodes[i])
    ensures k > lo ==> Visible(nodes[k - 1])
    decreases hi - lo
  {
    if lo == hi || Visible(nodes[hi - 1]) then hi else AfterLastVisible(nodes, lo, hi - 1)
  }

  /** The range shrunk to its first and last visible nodes. */
  function Narrow(nodes: seq<Node>, r: Range): (n: Range)
    requires InDoc(nodes, r)
    ensures InDoc(nodes, n) && r.start <= n.start && n.end <= r.end
  {
    var s := FirstVisible(nodes, r.start, r.end);
    Range(s, AfterLastVisible(nodes, s, r.end))
  }

  lemma {:induction false} InvisibleReadsAsSpace(ns: seq<Node>)
    requires forall i :: 0 <= i < |ns| ==> !Visible(ns[i])
    ensures AllSpace(TextOf(ns))
  {
    if ns != [] {
      InvisibleReadsAsSpace(ns[1..]);
    }
  }

  /** Nodes that begin and end with a visible node read as trimmed text. */
  lemma VisibleEndsReadTrimmed(ns: seq<Node>)
    requires ns != [] && Visible(ns[0]) && Visible(ns[|ns| - 1])
    ensures Trimmed(TextOf(ns))
  {
    var last := ns[|ns| - 1];
    TextOfConcat(ns[..|ns| - 1], [last]);
    assert ns[..|ns| - 1] + [last] == ns;
    assert TextOf([last]) == [last.c] by {
      assert [last][1..] == [];
    }
  }

  /** Invisible nodes around a stretch that starts and ends visibly (or is
      empty) are what `trim` cuts off. */
  lemma TrimReadsCore(a: seq<Node>, b: seq<Node>, c: seq<Node>)
    requires forall i :: 0 <= i < |a| ==> !Visible(a[i])
    requires forall i :: 0 <= i < |c| ==> !Visible(c[i])
    requires b == [] || (Visible(b[0]) && Visible(b[|b| - 1]))
    ensures Trim(TextOf(a + b + c)) == TextOf(b)
  {
    TextOfConcat(a + b, c);
    TextOfConcat(a, b);
    InvisibleReadsAsSpace(a);
    InvisibleReadsAsSpace(c);
    if b != [] {
      VisibleEndsReadTrimmed(b);
    }
    TrimAround(TextOf(a), TextOf(b), TextOf(c));
  }

  lemma SliceInThree(ns: seq<Node>, i: nat, j: nat, k: nat, l: nat)
    requires i <= j <= k <= l <= |ns|
    ensures ns[i..l] == ns[i..j] + ns[j..k] + ns[k..l]
  {
  }

  /** The narrowed range reads exactly as the trimmed selected text. */
  lemma NarrowReadsTrimmed(nodes: seq<Node>, r: Range)
    requires InDoc(nodes, r)
    ensures RangeText(nodes, Narrow(nodes, r)) == Trim(RangeText(nodes, r))
  {
    var n := Narrow(nodes, r);
    var a := nodes[r.start..n.start];
    var b := nodes[n.start..n.end];
    var c := nodes[n.end..r.end];
    SliceInThree(nodes, r.start, n.start, n.end, r.end);
    TrimReadsCore(a, b, c);
  }

  /** `handleTextSelection` with the range narrowed to the text it stores. */
  function Capture(nodes: seq<Node>, r: Range): (s: Option<Selection>)
    requires InDoc(nodes, r)
  {
    var t := Trim(RangeText(nodes, r));
    if |t| > 0 then Some(Selection(Some(Narrow(nodes, r)), t)) else None
  }

  /** A selection is stored exactly when it holds something besides white
      space; what is stored is the trimmed text, and it passes the
      freshness check until the document changes. */
  lemma CaptureIsFresh(nodes: seq<Node>, r: Range)
    requires InDoc(nodes, r)
    ensures Capture(nodes, r).Some? <==> !AllSpace(RangeText(nodes, r))
    ensures Capture(nodes, r).Some? ==>
              && Capture(nodes, r).value.text == Trim(RangeText(nodes, r))
              && Fresh(nodes, Capture(nodes, r).value)
  {
    TrimEmptyIffAllSpace(RangeText(nodes, r));
    NarrowReadsTrimmed(nodes, r);
  }
}

=== FILE: session.dfy ===
/** The refinement session of the page (script.js:22-29 and its handlers):
    the loaded report, the current selection, the conversation sent to the
    refinement service, the edits applied so far, and the report display
    those edits change. */
module Refine {
  import opened Wrappers
  import opened JsText
  import opened ReportDom
  import opened ImageGuard
  import opened Selection
  import opened Naming

  /** One turn of `chatHistory`, as sent to the refinement service. */
  datatype ChatEntry = ChatEntry(role: string, content: string)

  /** A bubble of the chat panel: the user's instruction, a plain AI
      message, a refinement offered with its apply button, or the loading
      indicator. */
  datatype Bubble =
    | UserBubble(text: string)
    | AiText(text: string)
    | AiResult(instruction: string, refined: string)
    | Loading

  /** A message handed to the WebSocket (script.js:508-512). */
  datatype Request = Request(selection: string, instruction: string, history: seq<ChatEntry>)

  /** A message from the WebSocket; an absent field is the empty string. */
  datatype Inbound = Inbound(kind: string, originalInstruction: string, refinedText: string, error: string)

  /** One applied edit, as `refinedSections` records it for the save. */
  datatype EditRecord = EditRecord(original: string, refined: string)

  /** `currentReport`; a missing id is the empty string. */
  datatype Report = Report(id: string, name: string)

  /** The body posted to the save endpoint (script.js:580-585). */
  datatype SaveRequest = SaveRequest(sections: seq<EditRecord>, filename: string, originalFileId: string, newFilename: string)

  /** What the save endpoint answers: the new file, or a failure. */
  datatype SaveOutcome = Saved(id: string, name: string) | Failed

  const ConnectionError := "連線錯誤，無法發送請求。"
  const ErrorPrefix := "發生錯誤: "
  const ResultKind := "refinement_result"

  /** The user turn recorded for a refinement (script.js:638). */
  function HistoryPrompt(text: string, instruction: string): string {
    "原始文字：" + text + "\n指示：" + instruction
  }

  /** Position of the first loading bubble, or the length when there is none. */
  function FirstLoading(bs: seq<Bubble>): (k: nat)
    ensures k <= |bs| && forall i :: 0 <= i < k ==> bs[i] != Loading
    ensures k < |bs| ==> bs[k] == Loading
  {
    if bs == [] || bs[0] == Loading then 0 else FirstLoading(bs[1..]) + 1
  }

  /** `chatHistoryEl.querySelector('.loading-bubble').remove()`: the first
      loading bubble goes, the others stay in order. */
  function RemoveFirstLoading(bs: seq<Bubble>): seq<Bubble> {
    var k := FirstLoading(bs);
    if k < |bs| then bs[..k] + bs[k + 1..] else bs
  }

  function LoadingCount(bs: seq<Bubble>): nat {
    if bs == [] then 0 else LoadingCount(bs[..|bs| - 1]) + (if bs[|bs| - 1] == Loading then 1 else 0)
  }

  /** The bubbles other than loading indicators, in order. */
  function Others(bs: seq<Bubble>): seq<Bubble> {
    if bs == [] then [] else Others(bs[..|bs| - 1]) + (if bs[|bs| - 1] == Loading then [] else [bs[|bs| - 1]])
  }

  lemma {:induction false} CountsConcat(a: seq<Bubble>, b: seq<Bubble>)
    ensures LoadingCount(a + b) == LoadingCount(a) + LoadingCount(b)
    ensures Others(a + b) == Others(a) + Others(b)
    decreases |b|
  {
    if b == [] {
      assert a + b == a;
    } else {
      assert (a + b)[..|a + b| - 1] == a + b[..|b| - 1];
      CountsConcat(a, b[..|b| - 1]);
    }
  }

  lemma {:induction false} NoLoadingCountsZero(bs: seq<Bubble>)
    requires Loading !in bs
    ensures LoadingCount(bs) == 0
  {
    if bs != [] {
      assert bs[..|bs| - 1] + [bs[|bs| - 1]] == bs;
      NoLoadingCountsZero(bs[..|bs| - 1]);
    }
  }

  lemma SplitAt(bs: seq<Bubble>, k: nat)
    requires k < |bs| && bs[k] == Loading
    ensures bs == bs[..k] + [Loading] + bs[k + 1..]
  {
    assert bs[k..] == [Loading] + bs[k + 1..];
    assert bs == bs[..k] + bs[k..];
  }

  /** A loading indicator between `a` and `b` counts once and is not one
      of the other bubbles. */
  lemma DropLoading(a: seq<Bubble>, b: seq<Bubble>)
    ensures LoadingCount(a + [Loading] + b) == LoadingCount(a + b) + 1
    ensures Others(a + [Loading] + b) == Others(a + b)
  {
    CountsConcat(a + [Loading], b);
    CountsConcat(a, [Loading]);
    CountsConcat(a, b);
    assert [Loading][..0] == [];
  }

  /** Each reply takes away exactly one loading indicator when there is
      one, and none when there is none. */
  lemma RemoveFirstLoadingCounts(bs: seq<Bubble>)
    ensures LoadingCount(bs) > 0 <==> Loading in bs
    ensures LoadingCount(RemoveFirstLoading(bs)) == if Loading in bs then LoadingCount(bs) - 1 else 0
  {
    var k := FirstLoading(bs);
    if k < |bs| {
      SplitAt(bs, k);
      DropLoading(bs[..k], bs[k + 1..]);
    } else {
      assert bs[..k] == bs;
      NoLoadingCountsZero(bs);
    }
  }

  /** Removing the loading indicator keeps every other bubble, in order. */
  lemma RemoveFirstLoadingKeepsOthers(bs: seq<Bubble>)
    ensures Others(RemoveFirstLoading(bs)) == Others(bs)
  {
    var k := FirstLoading(bs);
    if k < |bs| {
      SplitAt(bs, k);
      DropLoading(bs[..k], bs[k + 1..]);
    }
  }

  /** A reply takes away the oldest loading indicator, which belongs to an
      earlier request when requests overlap, so only the count comes back:
      sending (with the socket open or not) and then receiving leaves as
      many indicators as before. */
  lemma RequestThenReplyBalances(bs: seq<Bubble>, added: seq<Bubble>, reply: seq<Bubble>)
    requires Loading !in added && Loading !in reply
    ensures LoadingCount(RemoveFirstLoading(bs + added + [Loading]) + reply) == LoadingCount(bs)
  {
    var sent := bs + added + [Loading];
    assert Loading in sent by {
      assert sent[|sent| - 1] == Loading;
    }
    RemoveFirstLoadingCounts(sent);
    CountsConcat(bs + added, [Loading]);
    CountsConcat(bs, added);
    CountsConcat(RemoveFirstLoading(sent), reply);
    NoLoadingCountsZero(added);
    NoLoadingCountsZero(reply);
    assert LoadingCount([Loading]) == 1 by {
      assert [Loading][..0] == [];
    }
  }

  class Session {
    var report: Report
    var selection: Selection
    var chatHistory: seq<ChatEntry>
    var refinedSections: seq<EditRecord>
    var isApplyingChange: bool
    var bubbles: seq<Bubble>
    var socketOpen: bool
    /** Every message handed to the open WebSocket, in order. */
    var sent: seq<Request>
    /** The image records of the last substitution, waiting for the
        deferred pass, which is due when `settleDue` is set. */
    var pending: seq<AssetRecord>
    var settleDue: bool
    const view: ReportView

    /** While an edit is being applied there is no selection, so no other
        edit can be applied; every recorded edit names some text. */
    predicate Valid()
      reads this
    {
      && (settleDue ==> isApplyingChange)
      && (isApplyingChange ==> selection == NoSelection)
      && (selection.text != "" <==> selection.range.Some?)
      && (forall k :: 0 <= k < |refinedSections| ==> refinedSections[k].original != "")
    }

    /** The state after a report has been loaded into `view`. */
    constructor (report: Report, view: ReportView)
      ensures Valid()
      ensures this.report == report && this.view == view
      ensures selection == NoSelection && chatHistory == [] && refinedSections == []
      ensures !isApplyingChange && bubbles == [] && !socketOpen && sent == []
      ensures pending == [] && !settleDue
    {
      this.report := report;
      this.view := view;
      selection := NoSelection;
      chatHistory := [];
      refinedSections := [];
      isApplyingChange := false;
      bubbles := [];
      socketOpen := false;
      sent := [];
      pending := [];
      settleDue := false;
    }

    /** The WebSocket opened or closed (script.js:150-153). */
    method SetConnection(open: bool)
      requires Valid()
      modifies this
      ensures Valid() && socketOpen == open
      ensures report == old(report) && selection == old(selection) && chatHistory == old(chatHistory)
      ensures refinedSections == old(refinedSections) && isApplyingChange == old(isApplyingChange)
      ensures bubbles == old(bubbles) && sent == old(sent) && pending == old(pending) && settleDue == old(settleDue)
    {
      socketOpen := open;
    }

    /** `handleTextSelection` (script.js:490-500) with the range narrowed to
        the stored text: ignored while an edit is being applied, and when the
        selection holds only white space; otherwise the trimmed text and a
        range that reads as it become the current selection. */
    method HandleTextSelection(r: Range)
      requires Valid() && InDoc(view.nodes, r)
      modifies this
      ensures Valid()
      ensures old(isApplyingChange) || AllSpace(RangeText(view.nodes, r)) ==> selection == old(selection)
      ensures !old(isApplyingChange) && !AllSpace(RangeText(view.nodes, r)) ==>
                && selection.text == Trim(RangeText(view.nodes, r))
                && selection.range == Some(Narrow(view.nodes, r))
                && Fresh(view.nodes, selection)
      ensures report == old(report) && chatHistory == old(chatHistory) && refinedSections == old(refinedSections)
      ensures isApplyingChange == old(isApplyingChange) && bubbles == old(bubbles) && socketOpen == old(socketOpen)
      ensures sent == old(sent) && pending == old(pending) && settleDue == old(settleDue)
    {
      if isApplyingChange {
        return;
      }
      CaptureIsFresh(view.nodes, r);
      var captured := Capture(view.nodes, r);
      if captured.Some? {
        selection := captured.value;
      }
    }

    /** `sendInstruction` (script.js:503-518): nothing happens without an
        instruction or a selection; otherwise the instruction is shown, sent
        with the selected text and the conversation so far when the socket is
        open (or answered with a connection error when it is not), and a
        loading indicator is shown in either case. The conversation itself is
        not extended here. */
    method SendInstruction(input: string)
      requires Valid()
      modifies this
      ensures Valid()
      ensures var instruction := Trim(input);
        if instruction == "" || old(selection).text == "" then
          bubbles == old(bubbles) && sent == old(sent)
        else if old(socketOpen) then
          && bubbles == old(bubbles) + [UserBubble(instruction), Loading]
          && sent == old(sent) + [Request(old(selection).text, instruction, old(chatHistory))]
        else
          && bubbles == old(bubbles) + [UserBubble(instruction), AiText(ConnectionError), Loading]
          && sent == old(sent)
      ensures report == old(report) && selection == old(selection) && chatHistory == old(chatHistory)
      ensures refinedSections == old(refinedSections) && isApplyingChange == old(isApplyingChange)
      ensures socketOpen == old(socketOpen) && pending == old(pending) && settleDue == old(settleDue)
    {
      var instruction := Trim(input);
      if instruction == "" || selection.text == "" {
        return;
      }
      bubbles := bubbles + [UserBubble(instruction)];
      if socketOpen {
        sent := sent + [Request(selection.text, instruction, chatHistory)];
      } else {
        bubbles := bubbles + [AiText(ConnectionError)];
      }
      bubbles := bubbles + [Loading];
    }

    /** `handleWebSocketMessage` (script.js:633-646): the first loading
        indicator goes; a refinement extends the conversation by the
        current selection with the instruction and by the refined text, and
        offers the refinement; an error is only shown; anything else is
        dropped. */
    method HandleMessage(m: Inbound)
      requires Valid()
      modifies this
      ensures Valid()
      ensures m.kind == ResultKind ==>
                && chatHistory == old(chatHistory) + [ChatEntry("user", HistoryPrompt(old(selection).text, m.originalInstruction)),
                                                      ChatEntry("assistant", m.refinedText)]
                && bubbles == RemoveFirstLoading(old(bubbles)) + [AiResult(m.originalInstruction, m.refinedText)]
      ensures m.kind != ResultKind ==>
                && chatHistory == old(chatHistory)
                && bubbles == RemoveFirstLoading(old(bubbles)) + (if m.error != "" then [AiText(ErrorPrefix + m.error)] else [])
      ensures report == old(report) && selection == old(selection) && refinedSections == old(refinedSections)
      ensures isApplyingChange == old(isApplyingChange) && socketOpen == old(socketOpen) && sent == old(sent)
      ensures pending == old(pending) && settleDue == old(settleDue)
    {
      bubbles := RemoveFirstLoading(bubbles);
      if m.kind == ResultKind {
        chatHistory := chatHistory + [ChatEntry("user", HistoryPrompt(selection.text, m.originalInstruction)),
                                      ChatEntry("assistant", m.refinedText)];
        bubbles := bubbles + [AiResult(m.originalInstruction, m.refinedText)];
      } else if m.error != "" {
        bubbles := bubbles + [AiText(ErrorPrefix + m.error)];
      }
    }

    /** `resetRefinePanel` (script.js:791-804): the selection always goes;
        a full reset also empties the chat, the conversation and the record
        of applied edits. */
    method ResetRefinePanel(full: bool)
      requires Valid()
      modifies this
      ensures Valid()
      ensures selection == NoSelection
      ensures full ==> bubbles == [] && chatHistory == [] && refinedSections == []
      ensures !full ==> bubbles == old(bubbles) && chatHistory == old(chatHistory) && refinedSections == old(refinedSections)
      ensures report == old(report) && isApplyingChange == old(isApplyingChange) && socketOpen == old(socketOpen)
      ensures sent == old(sent) && pending == old(pending) && settleDue == old(settleDue)
    {
      selection := NoSelection;
      if full {
        bubbles := [];
        chatHistory := [];
        refinedSections := [];
      }
    }

    /** `applyRefinement` (script.js:677-789). A selection that no longer
        reads as its text, or no selection at all, changes nothing. Otherwise
        the edit is recorded, the images are recorded (an image without an id
        under `gen(k)`), the selected nodes are replaced by the refined text,
        the deferred image pass is scheduled and the selection is reset. */
    method ApplyRefinement(newText: string, gen: nat -> Id) returns (applied: bool)
      requires Valid()
      modifies this, view
      ensures Valid()
      ensures applied <==> Fresh(old(view.nodes), old(selection))
      ensures old(isApplyingChange) ==> !applied
      ensures !applied ==> unchanged(this) && unchanged(view)
      ensures applied ==>
                var r := old(selection).range.value;
                && refinedSections == old(refinedSections) + [EditRecord(old(selection).text, newText)]
                && view.nodes == Substitute(old(view.nodes), r, newText)
                && isApplyingChange && settleDue && pending == Snapshot(old(view.nodes), gen)
                && selection == NoSelection
                && report == old(report) && chatHistory == old(chatHistory) && bubbles == old(bubbles)
                && socketOpen == old(socketOpen) && sent == old(sent)
      ensures view.elements == old(view.elements)
    {
      if !Fresh(view.nodes, selection) {
        return false;
      }
      var r := selection.range.value;
      BeginEdit(EditRecord(selection.text, newText), Snapshot(view.nodes, gen));
      view.ReplaceRange(r, newText);
      return true;
    }

    /** The session side of a successful `applyRefinement`: the edit and the
        image records are kept, the edit is marked in progress with its image
        pass due, and the selection is reset (script.js:695-704, 788). */
    method BeginEdit(edit: EditRecord, images: seq<AssetRecord>)
      requires Valid() && edit.original != ""
      modifies this
      ensures Valid()
      ensures refinedSections == old(refinedSections) + [edit]
      ensures isApplyingChange && settleDue && pending == images && selection == NoSelection
      ensures report == old(report) && chatHistory == old(chatHistory) && bubbles == old(bubbles)
      ensures socketOpen == old(socketOpen) && sent == old(sent)
    {
      refinedSections := refinedSections + [edit];
      isApplyingChange := true;
      pending := images;
      settleDue := true;
      selection := NoSelection;
    }

    /** The deferred callback of script.js:734-785: the restore pass over the
        recorded images; if it runs to the end, `protectImages` (new ids
        from `gen`) and the end of the edit. An exception in the pass leaves
        the edit marked as in progress, so later selections are ignored. */
    method SettleImages(gen: nat -> Id) returns (completed: bool)
      requires Valid() && settleDue
      modifies this, view
      ensures Valid() && !settleDue && pending == []
      ensures completed <==> RestoreAll(old(view.nodes), old(view.elements), old(pending)).Completed?
      ensures completed ==> view.nodes == Protected(RestoreAll(old(view.nodes), old(view.elements), old(pending)).nodes, gen)
      ensures !completed ==> view.nodes == RestoreAll(old(view.nodes), old(view.elements), old(pending)).nodes
      ensures isApplyingChange == !completed
      ensures view.elements == old(view.elements)
      ensures report == old(report) && selection == old(selection) && chatHistory == old(chatHistory)
      ensures refinedSections == old(refinedSections) && bubbles == old(bubbles)
      ensures socketOpen == old(socketOpen) && sent == old(sent)
    {
      completed := RestoreImages(view, pending);
      if completed {
        view.ProtectImages(gen);
        isApplyingChange := false;
      }
      pending := [];
      settleDue := false;
    }

    /** `saveReport` (script.js:544-592) up to the request: no report or no
        edits means no request; the name dialog may abort; otherwise every
        recorded edit is posted with the chosen name. Nothing changes until
        the reply arrives, which is `FinishSave`; in between the user may
        still apply edits. */
    method StartSave(answer: Option<string>) returns (request: Option<SaveRequest>)
      ensures report.id == "" || refinedSections == [] ==> request == None
      ensures report.id != "" && refinedSections != [] ==>
                match ChooseSaveName(report.name, answer)
                case Abort => request == None
                case UseName(n) => request == Some(SaveRequest(refinedSections, report.name, report.id, n))
    {
      if report.id == "" || refinedSections == [] {
        return None;
      }
      var choice := ChooseSaveName(report.name, answer);
      if choice.Abort? {
        return None;
      }
      request := Some(SaveRequest(refinedSections, report.name, report.id, choice.name));
    }

    /** The reply to the save request with the sent edits cleared instead of
        all of them: on success the session follows the new file and keeps
        the edits recorded after `saved`, the edits the request carried;
        when the record no longer starts with them (a report switch emptied
        it meanwhile) it is kept as it is. */
    method FinishSaveKeepingLater(outcome: SaveOutcome, saved: seq<EditRecord>)
      requires Valid()
      modifies this
      ensures Valid()
      ensures outcome.Saved? ==>
                && report == Report(outcome.id, outcome.name)
                && old(refinedSections) == (if saved <= old(refinedSections) then saved else []) + refinedSections
      ensures outcome.Failed? ==> unchanged(this)
      ensures selection == old(selection) && chatHistory == old(chatHistory) && isApplyingChange == old(isApplyingChange)
      ensures bubbles == old(bubbles) && socketOpen == old(socketOpen) && sent == old(sent)
      ensures pending == old(pending) && settleDue == old(settleDue)
    {
      if outcome.Saved? {
        report := Report(outcome.id, outcome.name);
        if saved <= refinedSections {
          assert refinedSections == saved + refinedSections[|saved|..];
          refinedSections := refinedSections[|saved|..];
        }
      }
    }

    /** The reply to the save request (script.js:594-614): on success the
        session follows the new file and empties the record of edits, which
        drops any edit applied while the request was pending as well; on
        failure nothing changes. */
    method FinishSave(outcome: SaveOutcome)
      requires Valid()
      modifies this
      ensures Valid()
      ensures outcome.Saved? ==> report == Report(outcome.id, outcome.name) && refinedSections == []
      ensures outcome.Failed? ==> unchanged(this)
      ensures selection == old(selection) && chatHistory == old(chatHistory) && isApplyingChange == old(isApplyingChange)
      ensures bubbles == old(bubbles) && socketOpen == old(socketOpen) && sent == old(sent)
      ensures pending == old(pending) && settleDue == old(settleDue)
    {
      if outcome.Saved? {
        report := Report(outcome.id, outcome.name);
        refinedSections := [];
      }
    }
  }

  /** A save whose request is built, then an edit applied while the request
      is pending, then a successful reply: the request carries only the
      edits from before, and the reply empties the record, so the edit
      applied in between is in neither, though the display shows it. */
  method EditDuringSave(session: Session, answer: Option<string>, newText: string, gen: nat -> Id, saved: SaveOutcome)
    returns (request: Option<SaveRequest>, applied: bool)
    requires session.Valid() && saved.Saved?
    modifies session, session.view
    ensures request.Some? ==> request.value.sections == old(session.refinedSections) && session.refinedSections == []
    ensures request.Some? ==> (applied <==> Fresh(old(session.view.nodes), old(session.selection)))
    ensures applied ==>
              && Fresh(old(session.view.nodes), old(session.selection))
              && session.view.nodes == Substitute(old(session.view.nodes), old(session.selection).range.value, newText)
    ensures request.None? ==> !applied && session.refinedSections == old(session.refinedSections)
  {
    request := session.StartSave(answer);
    if request.None? {
      return request, false;
    }
    applied := session.ApplyRefinement(newText, gen);
    session.FinishSave(saved);
  }

  /** The same interleaving with the reply clearing only the sent edits:
      the edit applied while the request was pending is still recorded
      afterwards, ready for the next save. */
  method EditDuringSaveKept(session: Session, answer: Option<string>, newText: string, gen: nat -> Id, saved: SaveOutcome)
    returns (request: Option<SaveRequest>, applied: bool)
    requires session.Valid() && saved.Saved?
    modifies session, session.view
    ensures request.Some? ==> request.value.sections == old(session.refinedSections)
    ensures request.Some? ==> (applied <==> Fresh(old(session.view.nodes), old(session.selection)))
    ensures request.Some? && applied ==>
              session.refinedSections == [EditRecord(old(session.selection).text, newText)]
    ensures request.Some? && !applied ==> session.refinedSections == []
    ensures request.None? ==> !applied && session.refinedSections == old(session.refinedSections)
  {
    request := session.StartSave(answer);
    if request.None? {
      return request, false;
    }
    applied := session.ApplyRefinement(newText, gen);
    ghost var before := session.refinedSections;
    assert request.value.sections <= before;
    session.FinishSaveKeepingLater(saved, request.value.sections);
    assert session.refinedSections == before[|request.value.sections|..];
  }
}

=== FILE: text.dfy ===
/** String operations of the browser script as ECMAScript defines them:
    `String.prototype.trim`, `split('/').pop()` and `replace` with a string
    pattern (first occurrence only). */
module JsText {

  /** ECMAScript WhiteSpace and LineTerminator code points, which `trim` removes. */
  predicate IsSpace(c: char) {
    c == '\t' || c == '\n' || c == '\U{B}' || c == '\U{C}' || c == '\r' || c == ' '
    || c == '\U{A0}' || c == '\U{1680}' || ('\U{2000}' <= c <= '\U{200A}')
    || c == '\U{2028}' || c == '\U{2029}' || c == '\U{202F}' || c == '\U{205F}'
    || c == '\U{3000}' || c == '\U{FEFF}'
  }

  predicate AllSpace(s: string) {
    forall i :: 0 <= i < |s| ==> IsSpace(s[i])
  }

  /** Neither end of `s` is white space (true of the empty string). */
  predicate Trimmed(s: string) {
    s == [] || (!IsSpace(s[0]) && !IsSpace(s[|s| - 1]))
  }

  /** Number of white-space characters at the start of `s`. */
  function LeadingSpace(s: string): (k: nat)
    ensures k <= |s| && AllSpace(s[..k])
    ensures k == |s| || !IsSpace(s[k])
  {
    if s != [] && IsSpace(s[0]) then
      var k := LeadingSpace(s[1..]);
      assert s[..k + 1] == [s[0]] + s[1..][..k];
      k + 1
    else 0
  }

  /** Length of `s` without its trailing white space. */
  function TrailingCut(s: string): (k: nat)
    ensures k <= |s| && AllSpace(s[k..])
    ensures k == 0 || !IsSpace(s[k - 1])
  {
    if s != [] && IsSpace(s[|s| - 1]) then
      var k := TrailingCut(s[..|s| - 1]);
      assert s[k..] == s[..|s| - 1][k..] + [s[|s| - 1]];
      k
    else |s|
  }

  function TrimStart(s: string): string {
    s[LeadingSpace(s)..]
  }

  function TrimEnd(s: string): string {
    s[..TrailingCut(s)]
  }

  /** `String.prototype.trim`. */
  function Trim(s: string): string {
    TrimEnd(TrimStart(s))
  }

  /** What `trim` leaves is the middle of its input, with only white space
      cut from each end, and no white space at either end. */
  lemma TrimIsCore(s: string)
    ensures Trimmed(Trim(s))
    ensures exists i, j :: 0 <= i <= j <= |s| && Trim(s) == s[i..j]
                           && AllSpace(s[..i]) && AllSpace(s[j..])
  {
    var i := LeadingSpace(s);
    var t := s[i..];
    var k := TrailingCut(t);
    assert Trim(s) == s[i..i + k];
    assert s[i + k..] == t[k..];
    if k > 0 {
      assert s[i..i + k][0] == s[i];
    }
  }

  lemma {:induction false} TrimStartNoop(s: string)
    requires s == [] || !IsSpace(s[0])
    ensures TrimStart(s) == s
  {
  }

  lemma {:induction false} TrimEndNoop(s: string)
    requires s == [] || !IsSpace(s[|s| - 1])
    ensures TrimEnd(s) == s
  {
  }

  /** Leading white space does not change what `trimStart` leaves. */
  lemma {:induction false} TrimStartSkipsSpace(w: string, s: string)
    requires AllSpace(w)
    ensures TrimStart(w + s) == TrimStart(s)
  {
    if w != [] {
      assert (w + s)[1..] == w[1..] + s;
      TrimStartSkipsSpace(w[1..], s);
    } else {
      assert w + s == s;
    }
  }

  /** Trailing white space does not change what `trimEnd` leaves. */
  lemma {:induction false} TrimEndSkipsSpace(s: string, w: string)
    requires AllSpace(w)
    ensures TrimEnd(s + w) == TrimEnd(s)
  {
    if w != [] {
      assert (s + w)[..|s + w| - 1] == s + w[..|w| - 1];
      TrimEndSkipsSpace(s, w[..|w| - 1]);
    } else {
      assert s + w == s;
    }
  }

  /** Trimming white space around a string whose ends are not white space
      gives back exactly that string. */
  lemma TrimAround(w1: string, core: string, w2: string)
    requires AllSpace(w1) && AllSpace(w2) && Trimmed(core)
    ensures Trim(w1 + core + w2) == core
  {
    assert w1 + core + w2 == w1 + (core + w2);
    TrimStartSkipsSpace(w1, core + w2);
    if core == [] {
      assert core + w2 == w2;
      assert TrimStart(w2) == [];
    } else {
      TrimStartNoop(core + w2);
      TrimEndSkipsSpace(core, w2);
      TrimEndNoop(core);
    }
  }

  /** `trim` is idempotent. */
  lemma TrimIdempotent(s: string)
    ensures Trim(Trim(s)) == Trim(s)
  {
    TrimIsCore(s);
    var t := Trim(s);
    TrimAround([], t, []);
    assert [] + t + [] == t;
  }

  /** `trim` leaves nothing exactly when the string is all white space. */
  lemma TrimEmptyIffAllSpace(s: string)
    ensures Trim(s) == [] <==> AllSpace(s)
  {
    if Trim(s) == [] {
      TrimIsCore(s);
      var i, j :| 0 <= i <= j <= |s| && Trim(s) == s[i..j] && AllSpace(s[..i]) && AllSpace(s[j..]);
      assert s == s[..i] + s[j..];
    } else {
      assert LeadingSpace(s) < |s|;
    }
  }

  /** A trimmed string is its own trim; any other string is not. */
  lemma TrimFixesExactlyTrimmed(s: string)
    ensures Trim(s) == s <==> Trimmed(s)
  {
    TrimIsCore(s);
    if Trimmed(s) {
      TrimAround([], s, []);
      assert [] + s + [] == s;
    }
  }

  /** Index of the last '/' in `s`, or -1 when there is none. */
  function LastSlash(s: string): (k: int)
    ensures -1 <= k < |s|
    ensures k >= 0 ==> s[k] == '/'
    ensures forall j :: k < j < |s| ==> s[j] != '/'
  {
    if s == [] then -1
    else if s[|s| - 1] == '/' then |s| - 1
    else LastSlash(s[..|s| - 1])
  }

  /** The part of `s` after its last '/': `s.split('/').pop()`. */
  function LastSegment(s: string): string {
    s[LastSlash(s) + 1..]
  }

  predicate OccursAt(s: string, pat: string, k: int) {
    0 <= k <= |s| - |pat| && s[k..k + |pat|] == pat
  }

  /** An occurrence at `k` is an occurrence at `k - 1` in the string
      without its first character. */
  lemma OccursShift(s: string, pat: string, k: int)
    requires 1 <= k && s != []
    ensures OccursAt(s, pat, k) <==> OccursAt(s[1..], pat, k - 1)
  {
    if k <= |s| - |pat| {
      var a := s[1..][k - 1..k - 1 + |pat|];
      var b := s[k..k + |pat|];
      assert |a| == |b| && forall i :: 0 <= i < |a| ==> a[i] == b[i];
      assert a == b;
    }
  }

  /** Index of the first occurrence of `pat` in `s`, as `indexOf` finds it. */
  function IndexOf(s: string, pat: string): (r: int)
    ensures r == -1 || OccursAt(s, pat, r)
    ensures forall k :: 0 <= k && (r < 0 || k < r) ==> !OccursAt(s, pat, k)
    decreases |s|
  {
    if |s| < |pat| then -1
    else if s[..|pat|] == pat then 0
    else
      var r := IndexOf(s[1..], pat);
      forall k | 1 <= k ensures OccursAt(s, pat, k) <==> OccursAt(s[1..], pat, k - 1) {
        OccursShift(s, pat, k);
      }
      if r < 0 then -1 else r + 1
  }

  /** An occurrence with none before it is the one `indexOf` finds. */
  lemma FirstOccurrence(s: string, pat: string, k: int)
    requires OccursAt(s, pat, k)
    requires forall j :: 0 <= j < k ==> !OccursAt(s, pat, j)
    ensures IndexOf(s, pat) == k
  {
  }

  /** `s.replace(pat, rep)` with a string pattern: only the first occurrence
      is replaced, and `s` is unchanged when `pat` does not occur. */
  function ReplaceFirst(s: string, pat: string, rep: string): string {
    var k := IndexOf(s, pat);
    if k < 0 then s else s[..k] + rep + s[k + |pat|..]
  }
}

=== FILE: wrappers.dfy ===
/** The optional value used where the script has `null`/`undefined`. */
module Wrappers {
  datatype Option<T> = None | Some(value: T)
}
